=== FILE: README.md ===
# EndofDayz game windows — a Dafny model

EndofDayz is a grid survival game. The player walks a square grid toward a
hospital. Zombies and tracking zombies move around the grid. The player
collects crossbows, garlic and time machines, which last a limited number of
steps. This project models the window layer that sits on top of the game
model:

- `csse7030.py`, `task1.py` and `task2.py`: the three game windows.
- `model_class.py`: their canvas grids.

The project covers:

- **Canvas geometry** (`Geometry`): `AbstractGrid` divides a canvas into equal
  cells. The model covers the constructor's validation and its exceptions, the
  cell rectangles, pixel-to-cell conversion, cell centres, the bounds test and
  cell annotations. It proves that the conversions invert each other and that
  the cells tile the canvas.
- **Inventory clicks** (`Inventory`): clicking an inventory row flips the
  item in that row; when that item was inactive, the first active item is
  switched off first. This keeps at most one item active. `InventoryView.toggle_item_activation` is a plain flip,
  which can raise `IndexError`.
- **Firing** (`Firing`): a crossbow shot walks from the player in the fired
  direction. It stops at the first occupied cell and removes that occupant only
  if it is a zombie. The model covers the immediate `_fire` of the first two
  windows and the animated `crossbow_animations` walk of the third window. Both
  are proved to change the grid in the same way.
- **Time machine** (`TimeMachine`): the third window rebuilds copies of the
  game. One rebuild drops every time machine, the other keeps them. The window
  keeps six such copies in `_back5games`, saved after each move. The buffer is
  created once, with six `None` slots, when the window is built, and `restart`
  and `play` do not clear it; the model starts from six empty slots, and the results about a rewind
  after six or more moves do not depend on that, because moves 1 to 6 write
  every slot. Clicking a
  time machine restarts the game or rewinds to the oldest copy. The model proves
  that after six or more consecutive successful moves the rewind goes back
  exactly five moves, to a game without time machines. A blocked movement key
  is saved as well, which shortens the rewind (see Findings); with saves after
  successful moves only, the five moves hold for every sequence of key presses.
- **High scores** (`HighScores`): the `name:score` line format, reading the file
  line by line (`strip`, `split(':')`, `int`), and the top-N update with
  Python's stable `sorted`. The model proves that writing a table and reading it
  back gives the table again. It also proves that the update keeps the table
  sorted and bounded. A short table becomes a permutation of the old records
  plus the winner. A full table has its last record replaced by the winner, so
  it becomes a permutation of the other records plus the winner.
- **Controls** (`Controls`): the key dispatch of `_key_press` and the
  minutes/seconds split of an elapsed time.

Python semantics are written out where they matter:

- `//` and `%` floor (`PyArith`).
- `or` in `AbstractGrid.__init__` evaluates left to right, so the exception
  raised depends on which check fails first.
- A list index of `-1` writes the last slot.
- `str.strip` removes the characters for which `str.isspace` holds.
- `int()` accepts an optional sign and surrounding whitespace.

Two behaviours of the code to keep in mind:

- A bad score line is not skipped: the first one raises `IndexError` (no `:`)
  or `ValueError` (not an integer), and `HighScores.ParseTable` models exactly
  that.
- In the third window the bolt moves one cell per timer tick. The model
  performs the whole walk at once, on the grid as it was when the player
  fired.

## Model

| member | source | states |
|---|---|---|
| PyArith.FloorDiv | model_class.py:51-52 | Python `//`: the quotient of the block holding `a`, for a positive or a negative divisor |
| PyArith.FloorMod | model_class.py:26 | Python `%`: `a == (a // b) * b + r`, with `r` taking the sign of the divisor |
| PyArith.FloorDivInBlock | model_class.py:51-52 | any `q` with `q*b <= a < q*b + b` is `a // b`, so the floor quotient is unique |
| Geometry.AbstractGrid.Init | model_class.py:25-34 | after the checks pass, the cell sizes times the counts give exactly the canvas width and height; no cell is annotated |
| Geometry.AbstractGrid.ForInventory | model_class.py:113-122 | the inventory view has 2 columns of `INVENTORY_WIDTH // 2` pixels and `rows` rows of `CELL_SIZE` pixels, with no validation |
| Geometry.AbstractGrid.Create | model_class.py:25-27 | a grid is built iff both divisions are exact; otherwise the exception follows the evaluation order: `ZeroDivisionError` for `cols == 0`, then `InitErorr` for an uneven width, then the same two for rows and height |
| Geometry.AbstractGrid.GetBBox | model_class.py:36-44 | a cell's rectangle starts at column times cell width and row times cell height, and spans exactly one cell, both ends inclusive |
| Geometry.AbstractGrid.PixelToPosition | model_class.py:46-53 | with positive cell sizes, the pixel lies in the rectangle of the cell it is mapped to |
| Geometry.AbstractGrid.GetPositionCenter | model_class.py:55-62 | the centre (rounded toward the top left) lies inside the cell's rectangle |
| Geometry.InBoundsCellOnCanvas | model_class.py:71-76 | on a grid whose cells tile the canvas, an in-bounds cell's rectangle lies inside the canvas (the converse of `PixelOnCanvasInBounds`) |
| Geometry.AbstractGrid.AnnotatePosition | model_class.py:64-69 | an in-bounds cell gets the text; an out-of-bounds cell leaves the annotations unchanged |
| Geometry.PixelInBBoxMapsBack | model_class.py:36-53 | every pixel of a cell's rectangle converts back to that cell |
| Geometry.CenterRoundTrip | model_class.py:46-62 | converting a cell's centre back gives the cell |
| Geometry.BBoxesDisjoint | model_class.py:36-44 | rectangles of distinct cells share no pixel |
| Geometry.LastCellEndsAtEdge | model_class.py:25-44 | on a validated grid the bottom-right cell ends on the last pixel of the canvas |
| Geometry.PixelOnCanvasInBounds | model_class.py:46-76 | on a validated grid every canvas pixel converts to an in-bounds cell |
| Inventory.FirstActive | csse7030.py:146-149 | the scan stops at the first active item, or reports that none is active |
| Inventory.Clicked | task1.py:100-107 | a click keeps the items, kinds and lifetimes; it flips the clicked item; it activates no other item |
| Inventory.ClickActivatesOnly | task1.py:100-107 | activating an inactive item leaves it the only active item |
| Inventory.ClickDeactivates | task1.py:100-107 | clicking the active item switches it off and changes nothing else |
| Inventory.ClickOutsideItems | task1.py:100 | a click on the header row or below the last item changes nothing |
| Inventory.ClickKeepsAtMostOneActive | task1.py:100-107 | every click keeps the invariant that at most one item is active |
| Inventory.ToggledAt | model_class.py:164-171 | the plain toggle flips the item of the clicked row alone and ignores the other items |
| Inventory.Inventory.Click | task2.py:103-114 | the new items are `Clicked` of the old ones, so at most one item stays active (`Valid`); the clicked kind is reported when the row holds an item |
| Inventory.Inventory.ToggleItemActivation | model_class.py:164-171 | a row below the last item raises `IndexError` and changes nothing; otherwise the items are `ToggledAt` the clicked row |
| Inventory.InventoryClick | task1.py:87-108 | the clicked pixel's row selects the item; the new items are `Clicked` of the old ones, and at most one item stays active |
| Firing.FirstFrom | csse7030.py:337-366 | what the walk finds is an occupied cell inside the grid |
| Firing.FirstFromIsAlongRay | csse7030.py:337-366 | what the walk finds is `k` steps along the ray, and every cell before it is in the grid and empty |
| Firing.FirstFromSeesOccupied | csse7030.py:337-366 | an occupied cell on the ray, with only grid cells before it, is never skipped |
| Firing.Fired | task1.py:209-232 | firing only removes tiles and changes no tile it keeps; the grid changes only when the player is a holding player |
| Firing.Shot | csse7030.py:337-366 | a shot removes at most one entity, only a zombie, and leaves every other cell unchanged |
| Firing.FireRemovesAtMostOneZombie | task1.py:205-233 | firing removes at most one entity; it is a zombie; the player stays |
| Firing.FireHitsFirstZombie | task2.py:201-227 | firing changes the grid exactly when the player holds an active crossbow and the first entity in that direction is a zombie, which is then removed |
| Firing.Grid.RemoveEntity | task1.py:231 | the cell is emptied and nothing else changes |
| Firing.Fire | task1.py:205-233 | the scan of the inventory stops at the first active crossbow; the grid becomes `Fired` of the old grid |
| Firing.CrossbowWalk | csse7030.py:327-366 | the bolt's cell-by-cell walk leaves the grid as `Shot` from its starting cell |
| Firing.FireWithBolt | csse7030.py:302-325 | the animated fire of the third window changes the grid exactly as the immediate fire does |
| TimeMachine.WithoutTimeMachines | csse7030.py:690-702 | the rebuilt inventory holds no time machine, keeps every other item and adds none |
| TimeMachine.WithoutTimeMachinesConcat | csse7030.py:690-702 | dropping time machines splits over concatenation, so the kept items keep their order |
| TimeMachine.WithoutTimeMachinesKeepsFree | csse7030.py:690-702 | an inventory without time machines is rebuilt unchanged |
| TimeMachine.NoTimeMachineCopy | csse7030.py:661-707 | size and counters are kept; time machines on the grid are dropped, and so are plain `Player` tiles, which no branch rebuilds; holding players lose only their time machines; every other tile is kept |
| TimeMachine.CopyTile | csse7030.py:603-707 | a tile is lost iff it is a plain `Player`, or a time machine on the grid when time machines are dropped; with time machines kept every other tile comes back unchanged; without, a holding player's inventory holds no time machine |
| TimeMachine.CompleteCopy | csse7030.py:603-657 | every tile except a plain `Player` comes back unchanged; size and counters are kept |
| TimeMachine.CompleteCopyIsExact | csse7030.py:603-657 | a game without plain `Player` tiles is copied exactly |
| TimeMachine.NoTimeMachineCopyIdempotent | csse7030.py:661-707 | rebuilding a rebuilt copy changes nothing |
| TimeMachine.NoTimeMachineCopyOfFreeGame | csse7030.py:661-707 | on a game without time machines the two rebuilds agree |
| TimeMachine.EmptySlots | csse7030.py:118 | the buffer starts as six empty slots |
| TimeMachine.SlotIndex | csse7030.py:271-272 | the first six moves write slot `moves - 1`; zero moves writes the last slot (Python index -1) |
| TimeMachine.Saved | csse7030.py:271-275 | up to six moves, the copy goes to slot `moves - 1` (the last slot when no move was made) and the other slots are kept; after six moves the oldest copy is dropped and the new copy appended; the buffer keeps six slots |
| TimeMachine.Replayed | csse7030.py:267-275 | saving a sequence of games from empty slots keeps six slots |
| TimeMachine.ReplayedHoldsLastSix | csse7030.py:267-275 | after `k <= 6` consecutive successful moves, slot `i` holds the copy taken after move `i + 1`; after more, the copies of the last six moves, oldest first |
| TimeMachine.RestoreRule | csse7030.py:152-162 | a time machine restarts the game iff at most five moves were made; otherwise it plays the oldest slot, or fails when that slot is empty |
| TimeMachine.TimeMachineGoesBackFiveMoves | csse7030.py:151-163 | after six or more consecutive successful moves the time machine rewinds to the game five moves back, which holds no time machine |
| TimeMachine.BlockedPressShortensRewind | csse7030.py:229-275 | after moves 1 to 7 and one blocked movement key, the time machine restores the copy taken after move 3, four moves back |
| TimeMachine.SavedIfMoved | csse7030.py:271-275 | the corrected save: a press that left the move count unchanged keeps the slots; any other press saves as `Saved` |
| TimeMachine.ReplayedIfMovedSkipsBlocked | csse7030.py:267-275 | with the corrected save, the slots are those that saving the successful moves alone would give |
| TimeMachine.MovingPressesAreConsecutive | csse7030.py:229-275 | when every key press adds zero or one move, the successful presses are moves 1, 2, ..., one per move made |
| TimeMachine.TimeMachineGoesBackFiveMovesIfMoved | csse7030.py:151-163 | with the corrected save, after six or more moves the time machine rewinds to the game five moves back, however many presses were blocked, and the game holds no time machine |
| TimeMachine.History.constructor | csse7030.py:118 | six empty slots |
| TimeMachine.History.Save | csse7030.py:271-275 | the slots become `Saved` of the old slots, and every saved copy stays free of time machines |
| TimeMachine.History.SaveIfMoved | csse7030.py:271-275 | the corrected save: the slots become `SavedIfMoved` of the old slots, and every saved copy stays free of time machines |
| TimeMachine.RewindingClick | csse7030.py:129-164 | the click updates the inventory as in the other windows; a click on a time machine (switched on or off) applies the restore rule, and a rewind never brings a time machine back |
| HighScores.ReadLines | csse7030.py:552-554 | an empty file has no lines, and a non-empty file has at least one |
| HighScores.ReadLinesJoinBack | csse7030.py:552-554 | joining the lines read gives the file content back, so `readlines` loses nothing |
| HighScores.ReadLinesOfConcat | csse7030.py:552-554 | joined lines that each end with their only line break are read back as those lines |
| HighScores.Strip | csse7030.py:557 | the result has no whitespace at either end; text without whitespace at its ends is kept as it is |
| HighScores.StripRemovesOnlySpace | csse7030.py:557 | `line.strip()` is a slice of the line, and everything cut off before and after it is whitespace |
| HighScores.StripLeftIsSuffix | csse7030.py:557 | the left strip keeps a suffix of the text |
| HighScores.StripRightIsPrefix | csse7030.py:557 | the right strip keeps a prefix of the text |
| HighScores.StripLeftRemovesSpace | csse7030.py:557 | every character the left strip removes is whitespace |
| HighScores.StripRightRemovesSpace | csse7030.py:557 | every character the right strip removes is whitespace |
| HighScores.Split | csse7030.py:557 | there is at least one piece, no piece holds the separator, and there are two or more pieces iff the separator occurs |
| HighScores.IntToString | csse7030.py:570 | `str(n)` is non-empty and starts with `-` iff `n` is negative |
| HighScores.ParseInt | csse7030.py:558 | an accepted text, once stripped, starts with a sign or a digit and ends with a digit; a negative value comes from a leading `-` |
| HighScores.FormatLine | csse7030.py:570 | a written line is non-empty and ends with its line break |
| HighScores.ParseLine | csse7030.py:557-558 | a line raises `IndexError` iff its stripped text has no `:`; a name read back never holds `:` |
| HighScores.ParseTable | csse7030.py:556-558 | a successful read yields one record per line |
| HighScores.Render | csse7030.py:568-576 | the written content is empty iff the table is |
| HighScores.HighScoreFileUpdate | csse7030.py:540-576 | the update fails iff reading the file fails; otherwise the file is rewritten iff the table is short, or full with a last score above the winner's |
| HighScores.IntRoundTrip | csse7030.py:558 | `int(str(n)) == n` for every integer |
| HighScores.LineRoundTrip | csse7030.py:556-570 | a written `name:score` line reads back as the same record when the name has no `:` or line break and does not start with whitespace |
| HighScores.ColonInNameBreaksTheFile | csse7030.py:556-570 | a winner name of the form `a:b` with `b` not starting like a number is written as a line whose read raises `ValueError` |
| HighScores.WinnerName | csse7030.py:504-510 | an empty entry is stored as `XXX XXX`; any other entry is stored as typed |
| HighScores.ParseTableStopsAtError | csse7030.py:556-558 | the first bad line decides the exception; later lines do not matter |
| HighScores.FileRoundTrip | csse7030.py:552-576 | reading back a written file gives the written table |
| HighScores.InsertByScore | csse7030.py:567 | insertion keeps the table sorted by score and adds exactly the new record |
| HighScores.SortByScore | csse7030.py:567 | the result is sorted by ascending score and is a permutation of the input |
| HighScores.UpdateTable | csse7030.py:565-576 | the file is rewritten iff the table is short, or full with a last score above the winner's; the new table is sorted, holds the winner, and is the old table (minus its last record when full) plus the winner |
| HighScores.UpdateDropsTheWorst | csse7030.py:571-573 | on a sorted full table every kept record scores no more than the record traded out |
| HighScores.UpdatedFileReadsBack | csse7030.py:540-576 | when the update rewrites the file and every name is safe, the file reads back as a sorted table of at most N records holding the winner |
| HighScores.ReadScores | csse7030.py:555-558 | the read loop yields the records line by line, or the first line's exception |
| HighScores.ParseTableStep | csse7030.py:556-558 | reading one more line appends its record, or raises its error, which is then the error of the whole file |
| HighScores.UpdateScores | csse7030.py:565-573 | the update of the record list: append the winner to a short table, or replace the last record of a full table whose last score is above the winner's, then sort stably; otherwise no change, as `UpdateTable` |
| HighScores.UpdateTableBranches | csse7030.py:565-573 | the two branches of the update: the sorted old table plus the winner, the sorted table with its last record replaced by the winner, or nothing |
| HighScores.FileUpdateAfterRead | csse7030.py:540-576 | once the file has been read as a table, whether and what is written is decided by the table update alone |
| HighScores.UpdateKeepsSafeNames | csse7030.py:565-573 | every record of the updated table is an old record or the winner, so names safe to write stay safe |
| HighScores.WriteScores | csse7030.py:568-570 | the write loop produces one `name:score` line per record, in order |
| HighScores.ChangeHighScoreFile | csse7030.py:540-576 | the new file content, no write, or the exception raised, as `HighScoreFileUpdate` of the old content |
| Controls.Dispatch | csse7030.py:175-192 | `w`/`a`/`s`/`d` always move; otherwise an arrow key fires; any other key does nothing |
| Controls.KeysSelectTheirAction | task2.py:118-133 | each direction's letter moves that way whatever the key symbol; each arrow fires that way |
| Controls.ActionDeterminesKey | task1.py:119-134 | a move comes only from its direction's letter, and a fire only from its direction's arrow |
| Controls.SplitScore | csse7030.py:236-238 | minutes times 60 plus seconds is the score, and the seconds lie in 0..59 |
| Controls.SplitScoreUnique | csse7030.py:381-383 | no other minute/second pair with seconds below 60 names the same time |
| Controls.ShortTimesHaveNoMinutes | csse7030.py:249-250 | a time under a minute has a minute part of 0, so the message shows seconds only |

## Findings

| source | as written | input that shows it | evidently intended | confidence | as-written member | corrected member |
|---|---|---|---|---|---|---|
| csse7030.py:267-275 | `_move` saves a copy after every movement key, also when the move is blocked and the move count does not change; past move six that press still drops the oldest copy | moves 1 to 7, then a key toward the grid edge (still 7 moves), then a click on a time machine: the game after move 3 comes back, four moves back | the time machine goes back five moves, so a press that made no move should save nothing | not executed; the move count staying the same on a blocked move is taken from the game model, which is not part of this model | TimeMachine.BlockedPressShortensRewind | TimeMachine.TimeMachineGoesBackFiveMovesIfMoved |

## Left out

- Drawing, images, fonts, window layout, message boxes, the status bar, menus,
  `draw`, `play`, `restart`, `save`, `load` and `quit`: these are presentation
  code and hold no state the model needs.
- Timers: `after`/`after_cancel` and the one-second `_step` tick are not
  modelled. `crossbow_animations` is modelled as a walk that completes at once;
  the game cannot change between bolt steps in the model.
- File access: `change_high_score_file` is modelled on the file's content as a
  string, and the content to write is its result. Universal-newline handling
  (`\r\n` read as `\n`) is not modelled; a line is text up to `\n`.
- Parts of `int()` are not modelled: underscores between digits and non-ASCII
  decimal digits. Such lines read as `ValueError` in the model.
- `MAX_ALLOWED_HIGH_SCORES` is defined in `constants.py`, which is not part of
  this model. It is the parameter `limit`, required to be positive; with 0 the
  code would index an empty list.
- HighScores.SortByScore: stability (equal scores keep their order) is in the
  definition but is not stated as a proved property; the contract states
  sortedness and permutation only.
- `display_high_scores`: the list it displays and the strings it formats are
  not modelled. Its minute/second split is `Controls.SplitScore`.
- The texts of the win and loss messages are not modelled. Only the
  minute/second split and the "minutes are zero" case are modelled.
- The game model, `a2_solution.py`, is not part of this model. This covers
  `Grid`, `Game`, `step`, `move_player`, the map loader, `find_player`,
  `first_in_direction` and `direction_to_offset`.
  - `_fire` takes the player entity from `get_player()` and the start cell
    from `find_player()`. The model assumes `get_player()` returns the entity
    at `find_player()`'s cell, and reads both from that cell.
  - `find_player`'s result is a parameter of the fire methods, constrained by
    `PlayerLookup`.
  - `first_in_direction` is modelled by `Firing.FirstInDirection`, the same
    walk as `crossbow_animations`.
  - `toggle_active` is taken to flip the item's flag.
  - The game passed to `_move` is a value (`GameRecord`) whose move counter is
    given.
- `get_duplication_dict` works by reflection over `__dict__`; its effect is
  modelled as a value copy of the game.
- Aliasing is not modelled:
  - A rewind plays the slot's game object itself, so later moves change the
    object still held in that slot.
  - The `Inventory` object is shared with the grid's holding player; the model
    keeps the inventory and the grid's tiles as separate values.
- `InventoryView.__init__` does not set `_tiles`, so `annotate_position` on an
  inventory view would fail. The model gives every grid an annotation map.
- Geometry.AbstractGrid.PixelToPosition: requires non-zero cell sizes, so the
  `ZeroDivisionError` that `pixel_to_position` raises on a grid with 0-pixel
  cells (which `AbstractGrid(rows=1, cols=1, width=0, height=0)` builds) is not
  modelled. The windows build their grids only from the positive constants
  `CELL_SIZE` and `INVENTORY_WIDTH // 2` (in `constants.py`, which is not part of
  this model). The same requirement is on `ToggleItemActivation`,
  `InventoryClick` and `RewindingClick`.
- `BasicMap`, `ImageMap` and `StatusBar` are not modelled; they only draw.
- `handler_adaptor` is not modelled; it only forwards event arguments.

=== FILE: Controls.dfy ===
/** The keyboard controls of the game windows and the split of an elapsed
    time in seconds into minutes and seconds for the end-of-game messages. */
module Controls {
  import opened Entities
  import opened PyArith

  /** What a key press does: move the player, fire the crossbow, or nothing. */
  datatype Action = Move(dir: Direction) | Fire(dir: Direction) | Ignore

  /** `_key_press`: the typed character is looked at first (`w`, `a`, `s`,
      `d` move), then the key's symbol (the arrow keys fire). */
  function Dispatch(ch: string, keysym: string): (a: Action)
    ensures ch in {"w", "a", "s", "d"} ==> a.Move?
    ensures a.Fire? ==> ch !in {"w", "a", "s", "d"} && keysym in {"Up", "Down", "Left", "Right"}
    ensures a.Ignore? <==> ch !in {"w", "a", "s", "d"} && keysym !in {"Up", "Down", "Left", "Right"}
  {
    if ch == "w" then Move(Up)
    else if ch == "a" then Move(Left)
    else if ch == "s" then Move(Down)
    else if ch == "d" then Move(Right)
    else if keysym == "Up" then Fire(Up)
    else if keysym == "Down" then Fire(Down)
    else if keysym == "Left" then Fire(Left)
    else if keysym == "Right" then Fire(Right)
    else Ignore
  }

  /** The character typed to move in a direction. */
  function MoveKey(d: Direction): string {
    match d
    case Up => "w"
    case Left => "a"
    case Down => "s"
    case Right => "d"
  }

  /** The symbol of the arrow key that fires in a direction. */
  function FireKey(d: Direction): string {
    match d
    case Up => "Up"
    case Down => "Down"
    case Left => "Left"
    case Right => "Right"
  }

  /** Every direction has its own movement key and its own arrow key, and a
      movement key moves whatever symbol the key press carries. */
  lemma KeysSelectTheirAction(d: Direction, keysym: string)
    ensures Dispatch(MoveKey(d), keysym) == Move(d)
    ensures Dispatch("", FireKey(d)) == Fire(d)
  {
  }

  /** Conversely, every action other than `Ignore` comes from exactly the
      key of its direction. */
  lemma ActionDeterminesKey(ch: string, keysym: string)
    ensures Dispatch(ch, keysym).Move? ==> ch == MoveKey(Dispatch(ch, keysym).dir)
    ensures Dispatch(ch, keysym).Fire? ==> keysym == FireKey(Dispatch(ch, keysym).dir)
  {
  }

  /** `score // 60` and `score % 60`: the elapsed minutes and the seconds left
      over, as shown in the win and loss messages and the high-score table. */
  function SplitScore(score: int): (r: (int, int))
    ensures r.0 * 60 + r.1 == score
    ensures 0 <= r.1 < 60
    ensures score >= 0 ==> r.0 >= 0
  {
    (FloorDiv(score, 60), FloorMod(score, 60))
  }

  /** The split is the only one with seconds below a minute: no two
      (minute, second) pairs name the same elapsed time. */
  lemma SplitScoreUnique(score: int, minute: int, second: int)
    requires minute * 60 + second == score && 0 <= second < 60
    ensures SplitScore(score) == (minute, second)
  {
    FloorDivInBlock(score, 60, minute);
  }

  /** A time below a minute is shown in seconds alone (the minute part is zero). */
  lemma ShortTimesHaveNoMinutes(score: int)
    requires 0 <= score < 60
    ensures SplitScore(score) == (0, score)
  {
    SplitScoreUnique(score, 0, score);
  }
}

=== FILE: Entities.dfy ===
/** The game's entities as values: grid positions, directions, pickup items,
    tile occupants and a whole-game record (the state a snapshot keeps). */
module Entities {

  datatype Option<T> = None | Some(value: T)

  /** A value, or the exception the source raises instead. */
  datatype Result<T, E> = Ok(value: T) | Err(error: E)

  /** A grid coordinate (col_x, row_y), or a pixel coordinate on a canvas. */
  datatype Pos = Pos(x: int, y: int) {
    function Add(other: Pos): Pos {
      Pos(x + other.x, y + other.y)
    }
  }

  /** The four symbolic directions (UP, DOWN, LEFT, RIGHT). */
  datatype Direction = Up | Down | Left | Right

  /** The unit offset of a direction: up = (0,-1), down = (0,1),
      left = (-1,0), right = (1,0). */
  function Offset(d: Direction): (o: Pos)
    ensures (o.x == 0) != (o.y == 0)
    ensures -1 <= o.x <= 1 && -1 <= o.y <= 1
  {
    match d
    case Up => Pos(0, -1)
    case Down => Pos(0, 1)
    case Left => Pos(-1, 0)
    case Right => Pos(1, 0)
  }

  /** The three pickup classes. */
  datatype ItemKind = Crossbow | Garlic | TimeMachine

  /** A pickup item: its class, its remaining lifetime and its `_using` flag. */
  datatype Item = Item(kind: ItemKind, lifetime: int, active: bool) {
    /** `toggle_active`: flips the flag, nothing else. */
    function Toggled(): Item {
      this.(active := !active)
    }
  }

  /** A tile occupant. A pickup lying on the grid keeps its lifetime and flag;
      a holding player owns its inventory's items in pickup order. */
  datatype Entity =
    | Zombie
    | TrackingZombie
    | Hospital
    | Player(infected: bool)
    | HoldingPlayer(infected: bool, items: seq<Item>)
    | Pickup(item: Item)
  {
    /** `display() in ZOMBIES`: the symbol is that of a zombie or a tracking zombie. */
    predicate IsZombie() {
      Zombie? || TrackingZombie?
    }

    predicate IsPlayer() {
      Player? || HoldingPlayer?
    }
  }

  /** What a snapshot of a game keeps: the grid size and tiles and the
      step and move counters. */
  datatype GameRecord = GameRecord(size: int, tiles: map<Pos, Entity>, steps: nat, moves: nat)
}

=== FILE: Firing.dfy ===
/** Firing the crossbow: the first-hit ray walk over the grid and the fire
    actions of the game windows, which remove the first entity in the fired
    direction when it is a zombie. */
module Firing {
  import opened Entities

  /** `Grid.in_bounds` of a `size` x `size` grid. */
  predicate InGrid(size: int, p: Pos) {
    0 <= p.x < size && 0 <= p.y < size
  }

  /** The cell `k` steps from `p` in direction `d`. */
  function Along(p: Pos, d: Direction, k: int): (q: Pos)
    ensures k == 1 ==> q == p.Add(Offset(d))
  {
    match d
    case Up => Pos(p.x, p.y - k)
    case Down => Pos(p.x, p.y + k)
    case Left => Pos(p.x - k, p.y)
    case Right => Pos(p.x + k, p.y)
  }

  /** How many cells of the grid are left on the ray from `p` in direction `d`. */
  function Remaining(size: int, p: Pos, d: Direction): nat {
    if !InGrid(size, p) then 0
    else match d
      case Up => p.y + 1
      case Down => size - p.y
      case Left => p.x + 1
      case Right => size - p.x
  }

  /** The first occupied cell met walking from `p` (included) in steps of
      `Offset(d)` while inside the grid, if any. */
  function FirstFrom(tiles: map<Pos, Entity>, size: int, p: Pos, d: Direction): (r: Option<Pos>)
    ensures r.Some? ==> r.value in tiles && InGrid(size, r.value)
    decreases Remaining(size, p, d)
  {
    if !InGrid(size, p) then None
    else if p in tiles then Some(p)
    else FirstFrom(tiles, size, p.Add(Offset(d)), d)
  }

  /** `first_in_direction(grid, start, offset)`: the walk starts one cell past `start`. */
  function FirstInDirection(tiles: map<Pos, Entity>, size: int, start: Pos, d: Direction): Option<Pos> {
    FirstFrom(tiles, size, start.Add(Offset(d)), d)
  }

  /** What `FirstFrom` finds is `k` steps along the ray, and every cell before
      it is inside the grid and empty. */
  lemma {:induction false} FirstFromIsAlongRay(tiles: map<Pos, Entity>, size: int, p: Pos, d: Direction) returns (k: nat)
    requires FirstFrom(tiles, size, p, d).Some?
    ensures FirstFrom(tiles, size, p, d).value == Along(p, d, k)
    ensures forall j :: 0 <= j < k ==> InGrid(size, Along(p, d, j)) && Along(p, d, j) !in tiles
    decreases Remaining(size, p, d)
  {
    if p in tiles {
      k := 0;
    } else {
      var next := p.Add(Offset(d));
      var k' := FirstFromIsAlongRay(tiles, size, next, d);
      k := k' + 1;
      forall j | 0 <= j < k
        ensures InGrid(size, Along(p, d, j)) && Along(p, d, j) !in tiles
      {
        if j > 0 {
          assert Along(p, d, j) == Along(next, d, j - 1);
        }
      }
    }
  }

  /** If an occupied cell lies on the ray with only grid cells before it, the
      walk finds something: nothing on the ray inside the grid is skipped. */
  lemma {:induction false} FirstFromSeesOccupied(tiles: map<Pos, Entity>, size: int, p: Pos, d: Direction, k: nat)
    requires forall j :: 0 <= j <= k ==> InGrid(size, Along(p, d, j))
    requires Along(p, d, k) in tiles
    ensures FirstFrom(tiles, size, p, d).Some?
    decreases k
  {
    assert Along(p, d, 0) == p;
    if p !in tiles {
      var next := p.Add(Offset(d));
      assert k > 0;
      forall j | 0 <= j <= k - 1
        ensures InGrid(size, Along(next, d, j))
      {
        assert Along(next, d, j) == Along(p, d, j + 1);
      }
      assert Along(next, d, k - 1) == Along(p, d, k);
      FirstFromSeesOccupied(tiles, size, next, d, k - 1);
    }
  }

  /** The crossbow bolt's walk from `p`: the first occupied cell on the ray is
      emptied if it holds a zombie; any other occupant, or no occupant, leaves
      the grid as it was. */
  function Shot(tiles: map<Pos, Entity>, size: int, p: Pos, d: Direction): (r: map<Pos, Entity>)
    ensures r.Keys <= tiles.Keys
    ensures forall q :: q in r ==> r[q] == tiles[q]
    ensures forall q :: q in tiles && q !in r ==> tiles[q].IsZombie()
    ensures forall a, b :: a in tiles && a !in r && b in tiles && b !in r ==> a == b
  {
    match FirstFrom(tiles, size, p, d)
    case None => tiles
    case Some(q) => if tiles[q].IsZombie() then tiles - {q} else tiles
  }

  /** `start` is what `find_player` returned for these tiles. */
  ghost predicate PlayerLookup(tiles: map<Pos, Entity>, start: Option<Pos>) {
    match start
    case Some(p) => p in tiles && tiles[p].IsPlayer()
    case None => forall p :: p in tiles ==> !tiles[p].IsPlayer()
  }

  predicate IsActiveCrossbow(item: Item) {
    item.kind == Crossbow && item.active
  }

  /** The tiles after firing in direction `d`: only a holding player with an
      active crossbow fires, and the shot starts one cell past the player. */
  function Fired(tiles: map<Pos, Entity>, size: int, start: Option<Pos>, d: Direction): (r: map<Pos, Entity>)
    requires PlayerLookup(tiles, start)
    ensures r.Keys <= tiles.Keys && forall q :: q in r ==> r[q] == tiles[q]
    ensures r != tiles ==> start.Some? && tiles[start.value].HoldingPlayer?
  {
    match start
    case None => tiles
    case Some(p) =>
      var player := tiles[p];
      if !player.HoldingPlayer? then tiles
      else if !(exists i :: 0 <= i < |player.items| && IsActiveCrossbow(player.items[i])) then tiles
      else Shot(tiles, size, p.Add(Offset(d)), d)
  }

  /** Firing removes at most one entity, only a zombie, and never the player. */
  lemma FireRemovesAtMostOneZombie(tiles: map<Pos, Entity>, size: int, start: Option<Pos>, d: Direction)
    requires PlayerLookup(tiles, start)
    ensures Fired(tiles, size, start, d).Keys <= tiles.Keys
    ensures forall q :: q in Fired(tiles, size, start, d) ==> Fired(tiles, size, start, d)[q] == tiles[q]
    ensures forall q :: q in tiles && q !in Fired(tiles, size, start, d) ==> tiles[q].IsZombie()
    ensures forall a, b :: a in tiles && a !in Fired(tiles, size, start, d) && b in tiles && b !in Fired(tiles, size, start, d) ==> a == b
    ensures start.Some? ==> start.value in Fired(tiles, size, start, d)
  {
  }

  /** Firing changes the grid exactly when the player holds an active
      crossbow and the first entity in the fired direction is a zombie; that
      zombie is the one removed. */
  lemma FireHitsFirstZombie(tiles: map<Pos, Entity>, size: int, p: Pos, d: Direction)
    requires PlayerLookup(tiles, Some(p))
    ensures var player := tiles[p];
            var first := FirstInDirection(tiles, size, p, d);
            Fired(tiles, size, Some(p), d) ==
              if player.HoldingPlayer?
                 && (exists i :: 0 <= i < |player.items| && IsActiveCrossbow(player.items[i]))
                 && first.Some? && tiles[first.value].IsZombie()
              then tiles - {first.value}
              else tiles
  {
  }

  /** The game's grid: `size` x `size` cells, at most one entity per cell. */
  class Grid {
    const size: int
    var tiles: map<Pos, Entity>

    constructor (size: int, tiles: map<Pos, Entity>)
      ensures this.size == size && this.tiles == tiles
    {
      this.size := size;
      this.tiles := tiles;
    }

    /** `remove_entity`: empties a cell; an empty cell stays empty. */
    method RemoveEntity(p: Pos)
      modifies this
      ensures tiles == old(tiles) - {p}
    {
      tiles := tiles - {p};
    }
  }

  /** `_fire` of the first two game windows. `start` is the result of
      `find_player`, which is not part of this model. The scan of the
      inventory stops at the first active crossbow, so at most one shot is
      fired. */
  method Fire(grid: Grid, start: Option<Pos>, d: Direction)
    requires PlayerLookup(grid.tiles, start)
    modifies grid
    ensures grid.tiles == Fired(old(grid.tiles), grid.size, start, d)
  {
    if start.None? || !grid.tiles[start.value].HoldingPlayer? {
      return;
    }
    var items := grid.tiles[start.value].items;
    var i := 0;
    while i < |items|
      invariant 0 <= i <= |items|
      invariant forall j :: 0 <= j < i ==> !IsActiveCrossbow(items[j])
      invariant grid.tiles == old(grid.tiles)
    {
      if items[i].kind == Crossbow && items[i].active {
        var first := FirstInDirection(grid.tiles, grid.size, start.value, d);
        if first.Some? && grid.tiles[first.value].IsZombie() {
          grid.RemoveEntity(first.value);
        }
        break;
      }
      i := i + 1;
    }
  }

  /** `crossbow_animations` without its drawing and timer: the bolt advances
      from `now` one cell per tick while inside the grid; on the first
      occupied cell it removes a zombie and stops, or stops on anything else. */
  method CrossbowWalk(grid: Grid, now: Pos, d: Direction)
    modifies grid
    ensures grid.tiles == Shot(old(grid.tiles), grid.size, now, d)
  {
    var at := now;
    while InGrid(grid.size, at)
      invariant grid.tiles == old(grid.tiles)
      invariant Shot(grid.tiles, grid.size, at, d) == Shot(grid.tiles, grid.size, now, d)
      decreases Remaining(grid.size, at, d)
    {
      if at !in grid.tiles {
        at := at.Add(Offset(d));
      } else if grid.tiles[at].IsZombie() {
        grid.RemoveEntity(at);
        break;
      } else {
        break;
      }
    }
  }

  /** `_fire` of the third game window: it checks the first entity in the
      direction itself and starts the bolt's walk only when it is a zombie. */
  method FireWithBolt(grid: Grid, start: Option<Pos>, d: Direction)
    requires PlayerLookup(grid.tiles, start)
    modifies grid
    ensures grid.tiles == Fired(old(grid.tiles), grid.size, start, d)
  {
    if start.None? || !grid.tiles[start.value].HoldingPlayer? {
      return;
    }
    var items := grid.tiles[start.value].items;
    var i := 0;
    while i < |items|
      invariant 0 <= i <= |items|
      invariant forall j :: 0 <= j < i ==> !IsActiveCrossbow(items[j])
      invariant grid.tiles == old(grid.tiles)
    {
      if items[i].kind == Crossbow && items[i].active {
        var first := FirstInDirection(grid.tiles, grid.size, start.value, d);
        if first.Some? && grid.tiles[first.value].IsZombie() {
          CrossbowWalk(grid, start.value.Add(Offset(d)), d);
        }
        break;
      }
      i := i + 1;
    }
  }
}

=== FILE: Geometry.dfy ===
/** `AbstractGrid`: a canvas divided into `rows` x `cols` equal rectangles,
    with the conversions between cell positions and pixels, the bounds test
    and the text annotations of cells. */
module Geometry {
  import opened Entities
  import opened PyArith

  /** The pixel rectangle `(x_min, y_min, x_max, y_max)` of a cell, both ends inclusive. */
  datatype BBox = BBox(xMin: int, yMin: int, xMax: int, yMax: int) {
    predicate Contains(pixel: Pos) {
      xMin <= pixel.x <= xMax && yMin <= pixel.y <= yMax
    }
  }

  /** Why building a grid fails: `InitErorr` when a dimension does not divide
      evenly, or Python's `ZeroDivisionError` when `cols` or `rows` is 0. */
  datatype InitFailure = InitErorr | ZeroDivision

  class AbstractGrid {
    const rows: int
    const cols: int
    const width: int
    const height: int
    /** Width and height of one cell in pixels. */
    const recWidth: int
    const recHeight: int
    /** `_tiles`: the text annotating each cell. */
    var tiles: map<Pos, string>

    /** The field assignments of `AbstractGrid.__init__` once its checks passed. */
    constructor Init(rows: int, cols: int, width: int, height: int)
      requires cols != 0 && rows != 0
      requires FloorMod(width, cols) == 0 && FloorMod(height, rows) == 0
      ensures this.rows == rows && this.cols == cols
      ensures this.width == width && this.height == height
      ensures recWidth * cols == width && recHeight * rows == height
      ensures tiles == map[]
    {
      this.rows := rows;
      this.cols := cols;
      this.width := width;
      this.height := height;
      recWidth := FloorDiv(width, cols);
      recHeight := FloorDiv(height, rows);
      tiles := map[];
    }

    /** `InventoryView.__init__`: two columns over `INVENTORY_WIDTH` pixels, one
        `CELL_SIZE` row per map row; it does not validate anything. */
    constructor ForInventory(rows: int, cellSize: int, inventoryWidth: int)
      ensures this.rows == rows && cols == 2
      ensures recHeight == cellSize && recWidth == FloorDiv(inventoryWidth, 2)
      ensures width == inventoryWidth && height == cellSize * rows
      ensures tiles == map[]
    {
      this.rows := rows;
      cols := 2;
      recHeight := cellSize;
      recWidth := FloorDiv(inventoryWidth, 2);
      width := inventoryWidth;
      height := cellSize * rows;
      tiles := map[];
    }

    /** `AbstractGrid.__init__`: `width % cols` is evaluated first, so `cols == 0`
        raises `ZeroDivisionError`; an uneven width raises `InitErorr` before
        `rows` is looked at; then the same for `height` and `rows`. */
    static method Create(rows: int, cols: int, width: int, height: int) returns (r: Result<AbstractGrid, InitFailure>)
      ensures r.Ok? <==> cols != 0 && rows != 0 && FloorMod(width, cols) == 0 && FloorMod(height, rows) == 0
      ensures r.Err? ==>
                r.error == (if cols == 0 then ZeroDivision
                              else if FloorMod(width, cols) != 0 then InitErorr
                              else if rows == 0 then ZeroDivision
                              else InitErorr)
      ensures r.Ok? ==> fresh(r.value) && r.value.tiles == map[]
      ensures r.Ok? ==> r.value.rows == rows && r.value.cols == cols
      ensures r.Ok? ==> r.value.width == width && r.value.height == height
      ensures r.Ok? ==> r.value.recWidth * cols == width && r.value.recHeight * rows == height
    {
      if cols == 0 {
        return Err(ZeroDivision);
      }
      if FloorMod(width, cols) != 0 {
        return Err(InitErorr);
      }
      if rows == 0 {
        return Err(ZeroDivision);
      }
      if FloorMod(height, rows) != 0 {
        return Err(InitErorr);
      }
      var g := new AbstractGrid.Init(rows, cols, width, height);
      r := Ok(g);
    }

    /** `get_bbox`: the pixel rectangle of cell `p`. */
    function GetBBox(p: Pos): (b: BBox)
      ensures b.xMax - b.xMin == recWidth - 1 && b.yMax - b.yMin == recHeight - 1
      ensures b.xMin == p.x * recWidth && b.yMin == p.y * recHeight
    {
      var xMin := p.x * recWidth;
      var yMin := p.y * recHeight;
      BBox(xMin, yMin, xMin + recWidth - 1, yMin + recHeight - 1)
    }

    /** `pixel_to_position`: the cell a pixel falls in (floor division). */
    function PixelToPosition(pixel: Pos): (p: Pos)
      requires recWidth != 0 && recHeight != 0
      ensures recWidth > 0 && recHeight > 0 ==> GetBBox(p).Contains(pixel)
    {
      var rowY := FloorDiv(pixel.y, recHeight);
      var colX := FloorDiv(pixel.x, recWidth);
      Pos(colX, rowY)
    }

    /** `get_position_center`: the centre pixel of a cell, rounded towards the top left. */
    function GetPositionCenter(p: Pos): (c: Pos)
      ensures recWidth > 0 && recHeight > 0 ==> GetBBox(p).Contains(c)
    {
      Pos(p.x * recWidth + FloorDiv(recWidth, 2), p.y * recHeight + FloorDiv(recHeight, 2))
    }

    /** `in_bounds`. */
    predicate InBounds(p: Pos) {
      0 <= p.x < cols && 0 <= p.y < rows
    }

    /** `annotate_position`: writes the text of an in-bounds cell, ignores the rest. */
    method AnnotatePosition(p: Pos, text: string)
      modifies this
      ensures tiles == if InBounds(p) then old(tiles)[p := text] else old(tiles)
    {
      if InBounds(p) {
        tiles := tiles[p := text];
      }
    }
  }

  /** Every pixel of a cell's rectangle maps back to that cell. */
  lemma PixelInBBoxMapsBack(g: AbstractGrid, p: Pos, pixel: Pos)
    requires g.recWidth > 0 && g.recHeight > 0
    requires g.GetBBox(p).Contains(pixel)
    ensures g.PixelToPosition(pixel) == p
  {
    FloorDivInBlock(pixel.x, g.recWidth, p.x);
    FloorDivInBlock(pixel.y, g.recHeight, p.y);
  }

  /** The centre of a cell maps back to the cell. */
  lemma CenterRoundTrip(g: AbstractGrid, p: Pos)
    requires g.recWidth > 0 && g.recHeight > 0
    ensures g.PixelToPosition(g.GetPositionCenter(p)) == p
  {
    PixelInBBoxMapsBack(g, p, g.GetPositionCenter(p));
  }

  /** The rectangles of two distinct cells share no pixel. */
  lemma BBoxesDisjoint(g: AbstractGrid, p: Pos, q: Pos, pixel: Pos)
    requires g.recWidth > 0 && g.recHeight > 0
    requires p != q
    ensures !(g.GetBBox(p).Contains(pixel) && g.GetBBox(q).Contains(pixel))
  {
    if g.GetBBox(p).Contains(pixel) && g.GetBBox(q).Contains(pixel) {
      PixelInBBoxMapsBack(g, p, pixel);
      PixelInBBoxMapsBack(g, q, pixel);
    }
  }

  /** A grid built by `Create` tiles its canvas exactly: the cells of the
      bottom-right corner end on the last pixel. */
  lemma LastCellEndsAtEdge(g: AbstractGrid)
    requires g.cols > 0 && g.rows > 0
    requires g.recWidth * g.cols == g.width && g.recHeight * g.rows == g.height
    ensures g.GetBBox(Pos(g.cols - 1, g.rows - 1)).xMax == g.width - 1
    ensures g.GetBBox(Pos(g.cols - 1, g.rows - 1)).yMax == g.height - 1
  {
    MulSucc(g.cols - 1, g.recWidth);
    MulSucc(g.rows - 1, g.recHeight);
  }

  /** On a grid whose cells tile the canvas, the rectangle of an in-bounds
      cell lies inside the canvas. */
  lemma InBoundsCellOnCanvas(g: AbstractGrid, p: Pos)
    requires g.recWidth >= 0 && g.recHeight >= 0
    requires g.recWidth * g.cols == g.width && g.recHeight * g.rows == g.height
    requires g.InBounds(p)
    ensures 0 <= g.GetBBox(p).xMin && g.GetBBox(p).xMax < g.width
    ensures 0 <= g.GetBBox(p).yMin && g.GetBBox(p).yMax < g.height
  {
    MulMonotone(0, p.x, g.recWidth);
    MulMonotone(p.x + 1, g.cols, g.recWidth);
    MulSucc(p.x, g.recWidth);
    MulMonotone(0, p.y, g.recHeight);
    MulMonotone(p.y + 1, g.rows, g.recHeight);
    MulSucc(p.y, g.recHeight);
  }

  /** On a grid whose cells tile the canvas, every pixel of the canvas lies in
      an in-bounds cell. */
  lemma PixelOnCanvasInBounds(g: AbstractGrid, pixel: Pos)
    requires g.cols > 0 && g.rows > 0 && g.recWidth > 0 && g.recHeight > 0
    requires g.recWidth * g.cols == g.width && g.recHeight * g.rows == g.height
    requires 0 <= pixel.x < g.width && 0 <= pixel.y < g.height
    ensures g.InBounds(g.PixelToPosition(pixel))
  {
    var p := g.PixelToPosition(pixel);
    if p.x >= g.cols {
      MulMonotone(g.cols, p.x, g.recWidth);
    }
    if p.y >= g.rows {
      MulMonotone(g.rows, p.y, g.recHeight);
    }
    if p.x < 0 {
      MulMonotone(p.x + 1, 0, g.recWidth);
      MulSucc(p.x, g.recWidth);
    }
    if p.y < 0 {
      MulMonotone(p.y + 1, 0, g.recHeight);
      MulSucc(p.y, g.recHeight);
    }
  }
}

=== FILE: HighScores.dfy ===
/** The high-score file of the winning dialogs: `name:score` lines kept sorted
    by ascending score (fewer steps is better), at most `limit` of them. The
    file itself is a string here; opening, reading and writing it is not. */
module HighScores {
  import opened Entities

  /** One record of the file. */
  datatype Score = Score(name: string, score: int)

  /** Why reading the file fails: `name_score[1]` on a line without `:`
      (`IndexError`), or `int()` of text that is not an integer (`ValueError`). */
  datatype LineError = IndexError | ValueError

  // ---------------------------------------------------------------------
  // Python's str.strip, str.split(':'), str(int), int(str) and readlines
  // ---------------------------------------------------------------------

  /** The characters `str.strip()` removes (`str.isspace`). */
  predicate IsSpace(c: char) {
    var n := c as int;
    || 0x09 <= n <= 0x0D || 0x1C <= n <= 0x20 || n == 0x85 || n == 0xA0 || n == 0x1680
    || 0x2000 <= n <= 0x200A || n == 0x2028 || n == 0x2029 || n == 0x202F || n == 0x205F
    || n == 0x3000
  }

  function StripLeft(s: string): (r: string)
    ensures |r| <= |s|
    ensures r != [] ==> !IsSpace(r[0])
  {
    if s != [] && IsSpace(s[0]) then StripLeft(s[1..]) else s
  }

  function StripRight(s: string): (r: string)
    ensures |r| <= |s|
    ensures r != [] ==> !IsSpace(r[|r| - 1])
  {
    if s != [] && IsSpace(s[|s| - 1]) then StripRight(s[..|s| - 1]) else s
  }

  /** What `StripLeft` keeps is a suffix of its argument. */
  lemma {:induction false} StripLeftIsSuffix(s: string)
    ensures StripLeft(s) == s[|s| - |StripLeft(s)|..]
  {
    if s != [] && IsSpace(s[0]) {
      StripLeftIsSuffix(s[1..]);
    }
  }

  /** What `StripRight` keeps is a prefix of its argument. */
  lemma {:induction false} StripRightIsPrefix(s: string)
    ensures StripRight(s) == s[..|StripRight(s)|]
  {
    if s != [] && IsSpace(s[|s| - 1]) {
      StripRightIsPrefix(s[..|s| - 1]);
    }
  }

  /** `StripLeft` removes only whitespace: every character before what it keeps is a space. */
  lemma {:induction false} StripLeftRemovesSpace(s: string)
    ensures forall k :: 0 <= k < |s| - |StripLeft(s)| ==> IsSpace(s[k])
  {
    if s != [] && IsSpace(s[0]) {
      StripLeftRemovesSpace(s[1..]);
      assert forall k :: 1 <= k < |s| - |StripLeft(s)| ==> s[k] == s[1..][k - 1];
    }
  }

  /** `StripRight` removes only whitespace: every character after what it keeps is a space. */
  lemma {:induction false} StripRightRemovesSpace(s: string)
    ensures forall k :: |StripRight(s)| <= k < |s| ==> IsSpace(s[k])
  {
    if s != [] && IsSpace(s[|s| - 1]) {
      StripRightRemovesSpace(s[..|s| - 1]);
      assert forall k :: |StripRight(s)| <= k < |s| - 1 ==> s[k] == s[..|s| - 1][k];
    }
  }

  /** `s.strip()` is a slice of `s` with only whitespace cut from its two ends. */
  lemma StripRemovesOnlySpace(s: string)
    ensures exists i, j ::
      && 0 <= i <= j <= |s| && Strip(s) == s[i..j]
      && (forall k :: 0 <= k < i ==> IsSpace(s[k]))
      && (forall k :: j <= k < |s| ==> IsSpace(s[k]))
  {
    var right := StripRight(s);
    var left := StripLeft(right);
    var i := |right| - |left|;
    var j := |right|;
    assert Strip(s) == s[i..j] by {
      StripRightIsPrefix(s);
      StripLeftIsSuffix(right);
    }
    assert forall k :: 0 <= k < i ==> IsSpace(s[k]) by {
      StripRightIsPrefix(s);
      StripLeftRemovesSpace(right);
      assert forall k :: 0 <= k < i ==> s[k] == right[k];
    }
    assert forall k :: j <= k < |s| ==> IsSpace(s[k]) by {
      StripRightRemovesSpace(s);
    }
  }

  /** `s.strip()`. */
  function Strip(s: string): (r: string)
    ensures |r| <= |s|
    ensures r != [] ==> !IsSpace(r[0]) && !IsSpace(r[|r| - 1])
    ensures s != [] && !IsSpace(s[0]) && !IsSpace(s[|s| - 1]) ==> r == s
  {
    StripLeftIsSuffix(StripRight(s));
    StripLeft(StripRight(s))
  }

  /** `s.split(sep)`: the pieces between separators; there is always one more
      piece than separators. */
  function Split(s: string, sep: char): (r: seq<string>)
    ensures |r| >= 1
    ensures forall i :: 0 <= i < |r| ==> sep !in r[i]
    ensures sep in s <==> |r| >= 2
  {
    if s == [] then [""]
    else
      var rest := Split(s[1..], sep);
      if s[0] == sep then [""] + rest
      else [[s[0]] + rest[0]] + rest[1..]
  }

  function DigitChar(d: nat): char
    requires d < 10
  {
    "0123456789"[d]
  }

  predicate IsDigit(c: char) {
    '0' <= c <= '9'
  }

  predicate AllDigits(s: string) {
    forall i :: 0 <= i < |s| ==> IsDigit(s[i])
  }

  /** `str(n)` for `n >= 0`: decimal digits without leading zeros. */
  function NatToString(n: nat): (s: string)
    ensures s != [] && AllDigits(s)
    ensures |s| > 1 ==> s[0] != '0'
  {
    if n < 10 then [DigitChar(n)] else NatToString(n / 10) + [DigitChar(n % 10)]
  }

  /** `str(n)`. */
  function IntToString(n: int): (s: string)
    ensures s != [] && (s[0] == '-' <==> n < 0)
  {
    if n < 0 then "-" + NatToString(-n) else NatToString(n)
  }

  /** The value of a string of decimal digits. */
  function DigitsValue(s: string): nat
    requires AllDigits(s)
  {
    if s == [] then 0
    else
      assert IsDigit(s[|s| - 1]);
      10 * DigitsValue(s[..|s| - 1]) + (s[|s| - 1] as int - '0' as int)
  }

  /** `int(s)` on a string: surrounding whitespace is ignored, then an
      optional sign and at least one decimal digit. */
  function ParseInt(s: string): (r: Option<int>)
    ensures r.Some? ==> var t := Strip(s);
      t != [] && (t[0] == '-' || t[0] == '+' || IsDigit(t[0])) && IsDigit(t[|t| - 1])
    ensures r.Some? && r.value < 0 ==> Strip(s)[0] == '-'
  {
    var t := Strip(s);
    var negative := t != [] && t[0] == '-';
    var digits := if t != [] && (t[0] == '-' || t[0] == '+') then t[1..] else t;
    if digits != [] && AllDigits(digits) then
      var magnitude: int := DigitsValue(digits);
      Some(if negative then -magnitude else magnitude)
    else
      None
  }

  /** `file.readlines()`: each line keeps its `'\n'`; the last line may lack one. */
  function ReadLines(s: string): (r: seq<string>)
    ensures s == [] <==> r == []
  {
    if s == [] then []
    else if s[0] == '\n' then ["\n"] + ReadLines(s[1..])
    else
      var rest := ReadLines(s[1..]);
      if rest == [] then [s] else [[s[0]] + rest[0]] + rest[1..]
  }

  // ---------------------------------------------------------------------
  // Lemmas about the string functions
  // ---------------------------------------------------------------------

  lemma {:induction false} DigitsValueOfNatToString(n: nat)
    ensures DigitsValue(NatToString(n)) == n
  {
    if n >= 10 {
      var s := NatToString(n);
      assert s[..|s| - 1] == NatToString(n / 10);
      DigitsValueOfNatToString(n / 10);
    }
  }

  /** `str(n)` has no surrounding whitespace. */
  lemma IntStringIsStripped(n: int)
    ensures Strip(IntToString(n)) == IntToString(n)
  {
    var s := IntToString(n);
    var digits := NatToString(if n < 0 then -n else n);
    assert IsDigit(digits[0]) && IsDigit(digits[|digits| - 1]);
    assert s[0] == '-' || s[0] == digits[0];
    assert s[|s| - 1] == digits[|digits| - 1];
    assert !IsSpace(s[0]) && !IsSpace(s[|s| - 1]);
  }

  /** `int(str(n)) == n`. */
  lemma IntRoundTrip(n: int)
    ensures ParseInt(IntToString(n)) == Some(n)
  {
    IntStringIsStripped(n);
    var magnitude: nat := if n < 0 then -n else n;
    var digits := NatToString(magnitude);
    DigitsValueOfNatToString(magnitude);
    if n < 0 {
      assert IntToString(n)[1..] == digits;
    }
  }

  /** Splitting text with no separator gives it back whole. */
  lemma {:induction false} SplitWithoutSeparator(s: string, sep: char)
    requires sep !in s
    ensures Split(s, sep) == [s]
  {
    if s != [] {
      SplitWithoutSeparator(s[1..], sep);
      assert [s[0]] + s[1..] == s;
    }
  }

  /** Splitting `a + [sep] + b` cuts at the separator when `a` has none. */
  lemma {:induction false} SplitAtFirstSeparator(a: string, sep: char, b: string)
    requires sep !in a
    ensures Split(a + [sep] + b, sep) == [a] + Split(b, sep)
  {
    var s := a + [sep] + b;
    if a == [] {
      assert s[0] == sep && s[1..] == b;
    } else {
      assert s[0] == a[0] && s[1..] == a[1..] + [sep] + b;
      SplitAtFirstSeparator(a[1..], sep, b);
      assert [a[0]] + a[1..] == a;
    }
  }

  /** The lines of `line + more` are `line` and the lines of `more`, when
      `line` ends with its only line break. */
  lemma {:induction false} ReadLinesOfLine(line: string, more: string)
    requires line != [] && line[|line| - 1] == '\n'
    requires forall i :: 0 <= i < |line| - 1 ==> line[i] != '\n'
    ensures ReadLines(line + more) == [line] + ReadLines(more)
  {
    var s := line + more;
    if |line| == 1 {
      assert line == "\n" && s[0] == '\n' && s[1..] == more;
    } else {
      assert s[0] == line[0] && s[1..] == line[1..] + more;
      ReadLinesOfLine(line[1..], more);
      assert [line[0]] + line[1..] == line;
    }
  }

  // ---------------------------------------------------------------------
  // The line format
  // ---------------------------------------------------------------------

  /** The line written for one record: `name + ':' + str(score) + '\n'`. */
  function FormatLine(e: Score): (line: string)
    ensures line != [] && line[|line| - 1] == '\n'
  {
    e.name + ":" + IntToString(e.score) + "\n"
  }

  /** `line.strip().split(':')` then `(name_score[0], int(name_score[1]))`. */
  function ParseLine(line: string): (r: Result<Score, LineError>)
    ensures r == Err(IndexError) <==> ':' !in Strip(line)
    ensures r.Ok? ==> ':' !in r.value.name
  {
    var fields := Split(Strip(line), ':');
    if |fields| < 2 then Err(IndexError)
    else match ParseInt(fields[1])
      case None => Err(ValueError)
      case Some(n) => Ok(Score(fields[0], n))
  }

  /** A name that survives being written and read back: no `:` (the field
      separator), no line break, and no leading whitespace (stripped from the line). */
  ghost predicate SafeName(name: string) {
    && ':' !in name && '\n' !in name && '\r' !in name
    && (name != [] ==> !IsSpace(name[0]))
  }

  /** `str(n)` ends with a digit. */
  lemma IntStringEndsWithDigit(n: int)
    ensures IsDigit(IntToString(n)[|IntToString(n)| - 1])
  {
    var digits := NatToString(if n < 0 then -n else n);
    assert IntToString(n)[|IntToString(n)| - 1] == digits[|digits| - 1];
  }

  /** Stripping a written line leaves `name:score`. */
  lemma StripFormattedLine(e: Score)
    requires e.name != [] ==> !IsSpace(e.name[0])
    ensures Strip(FormatLine(e)) == e.name + ":" + IntToString(e.score)
  {
    var digits := IntToString(e.score);
    var body := e.name + ":" + digits;
    assert !IsSpace(body[0]) by {
      assert body[0] == if e.name == [] then ':' else e.name[0];
    }
    assert !IsSpace(body[|body| - 1]) by {
      IntStringEndsWithDigit(e.score);
      assert body[|body| - 1] == digits[|digits| - 1];
    }
    calc {
      Strip(FormatLine(e));
      StripLeft(StripRight(body + "\n"));
      { assert (body + "\n")[..|body|] == body; }
      StripLeft(StripRight(body));
      Strip(body);
      body;
    }
  }

  /** Splitting `name:score` at `:` gives the name and the score's digits. */
  lemma SplitFormattedLine(e: Score)
    requires SafeName(e.name)
    ensures Split(e.name + ":" + IntToString(e.score), ':') == [e.name, IntToString(e.score)]
  {
    var digits := IntToString(e.score);
    assert ':' !in digits by {
      assert forall i :: 0 <= i < |digits| ==> digits[i] == '-' || IsDigit(digits[i]);
    }
    SplitAtFirstSeparator(e.name, ':', digits);
    SplitWithoutSeparator(digits, ':');
  }

  /** Reading back a written line gives the record back. */
  lemma LineRoundTrip(e: Score)
    requires SafeName(e.name)
    ensures ParseLine(FormatLine(e)) == Ok(e)
  {
    StripFormattedLine(e);
    SplitFormattedLine(e);
    IntRoundTrip(e.score);
  }

  /** Text that, once stripped, starts with neither a sign nor a digit is not an integer. */
  lemma NotANumber(s: string)
    requires Strip(s) != [] && !IsDigit(Strip(s)[0]) && Strip(s)[0] != '-' && Strip(s)[0] != '+'
    ensures ParseInt(s).None?
  {
    var t := Strip(s);
    assert !IsDigit(t[0]);
  }

  /** Stripping keeps a first character that is not whitespace. */
  lemma {:induction false} StripKeepsFirst(s: string)
    requires s != [] && !IsSpace(s[0])
    ensures Strip(s) != [] && Strip(s)[0] == s[0]
  {
    if IsSpace(s[|s| - 1]) {
      StripKeepsFirst(s[..|s| - 1]);
    }
  }

  /** The second `:`-separated field of `a:b:c` is `b` when `a` and `b` hold no `:`. */
  lemma SplitSecondField(a: string, b: string, c: string)
    requires ':' !in a && ':' !in b
    ensures var fields := Split(a + ":" + b + ":" + c, ':'); |fields| >= 2 && fields[1] == b
  {
    assert a + ":" + b + ":" + c == a + [':'] + (b + [':'] + c);
    SplitAtFirstSeparator(a, ':', b + [':'] + c);
    SplitAtFirstSeparator(b, ':', c);
  }

  /** Why names must be safe: a winner named `a:b` is written as a line that
      reads back with `b` as the score, so reading the file raises
      `ValueError` when `b` does not start like a number. */
  lemma ColonInNameBreaksTheFile(a: string, b: string, n: int)
    requires ':' !in a && ':' !in b
    requires a != [] ==> !IsSpace(a[0])
    requires b != [] && !IsSpace(b[0]) && !IsDigit(b[0]) && b[0] != '-' && b[0] != '+'
    ensures ParseLine(FormatLine(Score(a + ":" + b, n))) == Err(ValueError)
  {
    var name := a + ":" + b;
    assert name != [] ==> !IsSpace(name[0]) by {
      assert name[0] == if a == [] then ':' else a[0];
    }
    StripFormattedLine(Score(name, n));
    SplitSecondField(a, b, IntToString(n));
    assert ParseInt(b).None? by {
      StripKeepsFirst(b);
      NotANumber(b);
    }
  }

  /** The name stored for a winner who left the entry empty. */
  function WinnerName(entered: string): (name: string)
    ensures name != []
    ensures entered != [] ==> name == entered
    ensures entered == [] ==> name == "XXX XXX"
  {
    if entered == "" then "XXX XXX" else entered
  }

  // ---------------------------------------------------------------------
  // The file as a whole
  // ---------------------------------------------------------------------

  /** The lines written for a table, one per record in order. */
  function FormatLines(table: seq<Score>): (lines: seq<string>)
    ensures |lines| == |table|
  {
    if table == [] then [] else FormatLines(table[..|table| - 1]) + [FormatLine(table[|table| - 1])]
  }

  /** The file content written for a table. */
  function Render(table: seq<Score>): (content: string)
    ensures content == [] <==> table == []
  {
    if table == [] then "" else Render(table[..|table| - 1]) + FormatLine(table[|table| - 1])
  }

  /** The table read from the lines of a file; the first bad line raises. */
  function ParseTable(lines: seq<string>): (r: Result<seq<Score>, LineError>)
    ensures r.Ok? ==> |r.value| == |lines|
  {
    if lines == [] then Ok([])
    else
      var before := lines[..|lines| - 1];
      match ParseTable(before)
      case Err(e) => Err(e)
      case Ok(table) =>
        match ParseLine(lines[|lines| - 1])
        case Err(e) => Err(e)
        case Ok(entry) => Ok(table + [entry])
  }

  /** A written line holds one line break, at its end. */
  lemma FormatLineIsOneLine(e: Score)
    requires SafeName(e.name)
    ensures var line := FormatLine(e);
            line[|line| - 1] == '\n' && forall i :: 0 <= i < |line| - 1 ==> line[i] != '\n'
  {
    var line := FormatLine(e);
    var digits := IntToString(e.score);
    assert forall i :: 0 <= i < |digits| ==> digits[i] == '-' || IsDigit(digits[i]);
    forall i | 0 <= i < |line| - 1
      ensures line[i] != '\n'
    {
      if i < |e.name| {
        assert line[i] == e.name[i];
      } else if i > |e.name| {
        assert line[i] == digits[i - |e.name| - 1];
      }
    }
  }

  /** A piece of text that is exactly one line: it ends with its only line break. */
  ghost predicate OneLine(line: string) {
    line != [] && line[|line| - 1] == '\n' && forall i :: 0 <= i < |line| - 1 ==> line[i] != '\n'
  }

  /** The lines joined back into one text. */
  function Concat(lines: seq<string>): string {
    if lines == [] then [] else Concat(lines[..|lines| - 1]) + lines[|lines| - 1]
  }

  /** `readlines` splits joined lines back into those lines. */
  lemma {:induction false} ReadLinesOfConcat(lines: seq<string>, more: string)
    requires forall i :: 0 <= i < |lines| ==> OneLine(lines[i])
    ensures ReadLines(Concat(lines) + more) == lines + ReadLines(more)
  {
    if lines == [] {
      assert Concat(lines) + more == more;
    } else {
      var front := lines[..|lines| - 1];
      var line := lines[|lines| - 1];
      assert forall i :: 0 <= i < |front| ==> OneLine(front[i]) by {
        assert forall i :: 0 <= i < |front| ==> front[i] == lines[i];
      }
      calc {
        ReadLines(Concat(lines) + more);
        { assert Concat(lines) + more == Concat(front) + (line + more); }
        ReadLines(Concat(front) + (line + more));
        { ReadLinesOfConcat(front, line + more); }
        front + ReadLines(line + more);
        { ReadLinesOfLine(line, more); }
        front + ([line] + ReadLines(more));
        { assert lines == front + [line]; }
        lines + ReadLines(more);
      }
    }
  }

  /** Joining a first line to the rest puts its text in front. */
  lemma {:induction false} ConcatCons(first: string, rest: seq<string>)
    ensures Concat([first] + rest) == first + Concat(rest)
  {
    if rest == [] {
      assert [first] + rest == [first];
      assert Concat([first][..0]) == [];
    } else {
      var all := [first] + rest;
      var front := rest[..|rest| - 1];
      assert all[..|all| - 1] == [first] + front;
      ConcatCons(first, front);
    }
  }

  /** `readlines` loses nothing: its lines joined give the text back. */
  lemma {:induction false} ReadLinesJoinBack(s: string)
    ensures Concat(ReadLines(s)) == s
  {
    if s != [] {
      var rest := ReadLines(s[1..]);
      if s[0] == '\n' {
        calc {
          Concat(ReadLines(s));
          Concat(["\n"] + rest);
          { ConcatCons("\n", rest); }
          "\n" + Concat(rest);
          { ReadLinesJoinBack(s[1..]); }
          [s[0]] + s[1..];
          s;
        }
      } else if rest == [] {
        calc {
          Concat(ReadLines(s));
          Concat([s]);
          { assert [s][..0] == []; }
          s;
        }
      } else {
        calc {
          Concat(ReadLines(s));
          Concat([[s[0]] + rest[0]] + rest[1..]);
          { ConcatCons([s[0]] + rest[0], rest[1..]); }
          ([s[0]] + rest[0]) + Concat(rest[1..]);
          [s[0]] + (rest[0] + Concat(rest[1..]));
          { ConcatCons(rest[0], rest[1..]); assert [rest[0]] + rest[1..] == rest; }
          [s[0]] + Concat(rest);
          { ReadLinesJoinBack(s[1..]); }
          [s[0]] + s[1..];
          s;
        }
      }
    }
  }

  /** The written file is its lines joined. */
  lemma {:induction false} RenderIsConcat(table: seq<Score>)
    ensures Render(table) == Concat(FormatLines(table))
  {
    if table != [] {
      var lines := FormatLines(table);
      RenderIsConcat(table[..|table| - 1]);
      assert lines[..|lines| - 1] == FormatLines(table[..|table| - 1]);
    }
  }

  /** Line `i` of the written file is the line of record `i`. */
  lemma {:induction false} FormatLinesAt(table: seq<Score>, i: int)
    requires 0 <= i < |table|
    ensures FormatLines(table)[i] == FormatLine(table[i])
  {
    if i < |table| - 1 {
      var front := table[..|table| - 1];
      FormatLinesAt(front, i);
      assert front[i] == table[i];
    }
  }

  lemma RenderLines(table: seq<Score>, more: string)
    requires forall i :: 0 <= i < |table| ==> SafeName(table[i].name)
    ensures ReadLines(Render(table) + more) == FormatLines(table) + ReadLines(more)
  {
    var lines := FormatLines(table);
    forall i | 0 <= i < |lines|
      ensures OneLine(lines[i])
    {
      FormatLinesAt(table, i);
      FormatLineIsOneLine(table[i]);
    }
    RenderIsConcat(table);
    ReadLinesOfConcat(lines, more);
  }

  lemma {:induction false} ParseFormattedLines(table: seq<Score>)
    requires forall i :: 0 <= i < |table| ==> SafeName(table[i].name)
    ensures ParseTable(FormatLines(table)) == Ok(table)
  {
    if table != [] {
      var lines := FormatLines(table);
      var front := table[..|table| - 1];
      var last := table[|table| - 1];
      assert front + [last] == table;
      assert lines[..|lines| - 1] == FormatLines(front);
      assert lines[|lines| - 1] == FormatLine(last);
      ParseFormattedLines(front);
      LineRoundTrip(last);
      assert ParseTable(lines[..|lines| - 1]) == Ok(front);
      assert ParseLine(lines[|lines| - 1]) == Ok(last);
      assert ParseTable(lines) == Ok(front + [last]);
    }
  }

  /** The first bad line decides the error: later lines are not read. */
  lemma {:induction false} ParseTableStopsAtError(lines: seq<string>, n: nat)
    requires n <= |lines| && ParseTable(lines[..n]).Err?
    ensures ParseTable(lines) == ParseTable(lines[..n])
    decreases |lines| - n
  {
    if n < |lines| {
      assert lines[..n + 1][..n] == lines[..n];
      ParseTableStopsAtError(lines, n + 1);
    } else {
      assert lines[..n] == lines;
    }
  }

  /** Reading a written file gives the table back. */
  lemma FileRoundTrip(table: seq<Score>)
    requires forall i :: 0 <= i < |table| ==> SafeName(table[i].name)
    ensures ParseTable(ReadLines(Render(table))) == Ok(table)
  {
    assert ReadLines(Render(table)) == FormatLines(table) by {
      var empty: string := [];
      RenderLines(table, empty);
      assert Render(table) + empty == Render(table);
      assert ReadLines(empty) == [];
    }
    ParseFormattedLines(table);
  }

  // ---------------------------------------------------------------------
  // Sorting and the table update
  // ---------------------------------------------------------------------

  ghost predicate SortedByScore(t: seq<Score>) {
    forall i, j :: 0 <= i < j < |t| ==> t[i].score <= t[j].score
  }

  lemma SortedCons(x: Score, t: seq<Score>)
    requires SortedByScore(t)
    requires t != [] ==> x.score <= t[0].score
    ensures SortedByScore([x] + t)
  {
    var r := [x] + t;
    forall i, j | 0 <= i < j < |r|
      ensures r[i].score <= r[j].score
    {
      if i == 0 && j > 1 {
        assert r[j] == t[j - 1];
      }
    }
  }

  /** `e` placed before the first record that does not score lower. */
  function InsertByScore(e: Score, t: seq<Score>): (r: seq<Score>)
    requires SortedByScore(t)
    ensures |r| == |t| + 1
    ensures r[0] == e || (t != [] && r[0] == t[0])
    ensures SortedByScore(r)
    ensures multiset(r) == multiset(t) + multiset{e}
  {
    if t == [] || e.score <= t[0].score then
      SortedCons(e, t);
      [e] + t
    else
      var rest := InsertByScore(e, t[1..]);
      SortedCons(t[0], rest);
      assert t == [t[0]] + t[1..];
      [t[0]] + rest
  }

  /** `sorted(t, key=lambda x: x[1])`: ascending by score; records with equal
      scores keep their order. */
  function SortByScore(t: seq<Score>): (r: seq<Score>)
    ensures SortedByScore(r)
    ensures multiset(r) == multiset(t)
  {
    if t == [] then []
    else
      assert t == [t[0]] + t[1..];
      InsertByScore(t[0], SortByScore(t[1..]))
  }

  /** The table after a win with `(name, score)`: a short table takes the new
      record; a full table trades its last record for it when that record
      scores higher; otherwise the file is not written (`None`). */
  function UpdateTable(table: seq<Score>, name: string, score: int, limit: nat): (r: Option<seq<Score>>)
    requires limit > 0
    ensures r.Some? <==> |table| < limit || (|table| == limit && table[limit - 1].score > score)
    ensures r.Some? ==> SortedByScore(r.value) && Score(name, score) in r.value
    ensures |table| < limit ==>
      |r.value| == |table| + 1 && multiset(r.value) == multiset(table) + multiset{Score(name, score)}
    ensures |table| == limit && r.Some? ==>
      |r.value| == limit && multiset(r.value) == multiset(table[..limit - 1]) + multiset{Score(name, score)}
  {
    var winner := Score(name, score);
    if |table| < limit then
      var r := SortByScore(table + [winner]);
      assert multiset(r) == multiset(table + [winner]);
      assert |r| == |table| + 1 by {
        assert |multiset(r)| == |r|;
      }
      assert winner in multiset(r);
      Some(r)
    else if |table| == limit && table[limit - 1].score > score then
      var r := SortByScore(table[..limit - 1] + [winner]);
      assert multiset(r) == multiset(table[..limit - 1] + [winner]);
      assert |r| == limit by {
        assert |multiset(r)| == |r|;
      }
      assert winner in multiset(r);
      Some(r)
    else
      None
  }

  /** On a sorted full table the record traded out is the worst one: every
      record of the new table scores no more than it did. */
  lemma UpdateDropsTheWorst(table: seq<Score>, name: string, score: int, limit: nat)
    requires limit > 0 && |table| == limit && SortedByScore(table)
    requires table[limit - 1].score > score
    ensures forall e :: e in UpdateTable(table, name, score, limit).value ==> e.score <= table[limit - 1].score
  {
    var r := UpdateTable(table, name, score, limit).value;
    forall e | e in r
      ensures e.score <= table[limit - 1].score
    {
      assert e in multiset(r);
      if e != Score(name, score) {
        assert e in multiset(table[..limit - 1]);
      }
    }
  }

  /** The whole of `change_high_score_file` as a function of the file content:
      the new content, `None` when the file is left alone, or the exception
      raised on a bad line. */
  function HighScoreFileUpdate(content: string, name: string, score: int, limit: nat): (r: Result<Option<string>, LineError>)
    requires limit > 0
    ensures r.Err? <==> ParseTable(ReadLines(content)).Err?
    ensures r.Ok? ==> var table := ParseTable(ReadLines(content)).value;
      (r.value.Some? <==> |table| < limit || (|table| == limit && table[limit - 1].score > score))
  {
    match ParseTable(ReadLines(content))
    case Err(e) => Err(e)
    case Ok(table) =>
      match UpdateTable(table, name, score, limit)
      case None => Ok(None)
      case Some(t) => Ok(Some(Render(t)))
  }

  /** Every name in the updated table is an old name or the winner's, so safe names stay safe. */
  lemma UpdateKeepsSafeNames(table: seq<Score>, name: string, score: int, limit: nat)
    requires limit > 0 && SafeName(name)
    requires forall i :: 0 <= i < |table| ==> SafeName(table[i].name)
    requires |table| < limit || (|table| == limit && table[limit - 1].score > score)
    ensures var updated := UpdateTable(table, name, score, limit).value;
            forall i :: 0 <= i < |updated| ==> SafeName(updated[i].name)
  {
    var updated := UpdateTable(table, name, score, limit).value;
    var winner := Score(name, score);
    var kept := if |table| < limit then table else table[..limit - 1];
    assert multiset(updated) == multiset(kept) + multiset{winner};
    assert forall x :: x in kept ==> SafeName(x.name);
    forall i | 0 <= i < |updated|
      ensures SafeName(updated[i].name)
    {
      assert updated[i] in multiset(kept) + multiset{winner};
    }
  }

  /** A file written by the update reads back as the updated table: sorted,
      at most `limit` records, holding the winner. */
  lemma UpdatedFileReadsBack(table: seq<Score>, name: string, score: int, limit: nat)
    requires limit > 0 && SafeName(name)
    requires forall i :: 0 <= i < |table| ==> SafeName(table[i].name)
    requires |table| < limit || (|table| == limit && table[limit - 1].score > score)
    ensures var t := ParseTable(ReadLines(Render(UpdateTable(table, name, score, limit).value)));
            t.Ok? && SortedByScore(t.value) && |t.value| <= limit && Score(name, score) in t.value
  {
    UpdateKeepsSafeNames(table, name, score, limit);
    FileRoundTrip(UpdateTable(table, name, score, limit).value);
  }

  /** Reading one more line either raises that line's error, which is then the
      error of the whole file, or appends its record. */
  lemma ParseTableStep(lines: seq<string>, i: nat, table: seq<Score>)
    requires i < |lines| && ParseTable(lines[..i]) == Ok(table)
    ensures ParseLine(lines[i]).Err? ==> ParseTable(lines) == Err(ParseLine(lines[i]).error)
    ensures ParseLine(lines[i]).Ok? ==> ParseTable(lines[..i + 1]) == Ok(table + [ParseLine(lines[i]).value])
  {
    assert lines[..i + 1][..i] == lines[..i];
    if ParseLine(lines[i]).Err? {
      ParseTableStopsAtError(lines, i + 1);
    }
  }

  /** The read loop of `change_high_score_file`: one record per line, in file
      order; the first bad line raises. */
  method ReadScores(lines: seq<string>) returns (r: Result<seq<Score>, LineError>)
    ensures r == ParseTable(lines)
  {
    var nameScores: seq<Score> := [];
    var i := 0;
    while i < |lines|
      invariant 0 <= i <= |lines|
      invariant ParseTable(lines[..i]) == Ok(nameScores)
    {
      var parsed := ParseLine(lines[i]);
      ParseTableStep(lines, i, nameScores);
      if parsed.Err? {
        return Err(parsed.error);
      }
      nameScores := nameScores + [parsed.value];
      i := i + 1;
    }
    assert lines[..|lines|] == lines;
    r := Ok(nameScores);
  }

  /** The write loop of `change_high_score_file`: one line per record. */
  method WriteScores(table: seq<Score>) returns (written: string)
    ensures written == Render(table)
  {
    written := "";
    var j := 0;
    while j < |table|
      invariant 0 <= j <= |table|
      invariant written == Render(table[..j])
    {
      assert table[..j + 1][..j] == table[..j];
      written := written + FormatLine(table[j]);
      j := j + 1;
    }
    assert table[..|table|] == table;
  }

  /** Once the file has been read as `table`, the update is decided by `UpdateTable`. */
  lemma FileUpdateAfterRead(content: string, name: string, score: int, limit: nat, table: seq<Score>)
    requires limit > 0 && ParseTable(ReadLines(content)) == Ok(table)
    ensures UpdateTable(table, name, score, limit).None? ==> HighScoreFileUpdate(content, name, score, limit) == Ok(None)
    ensures UpdateTable(table, name, score, limit).Some? ==>
      HighScoreFileUpdate(content, name, score, limit) == Ok(Some(Render(UpdateTable(table, name, score, limit).value)))
  {
  }

  /** The table `UpdateTable` gives in each branch of the source. */
  lemma UpdateTableBranches(table: seq<Score>, name: string, score: int, limit: nat)
    requires limit > 0
    ensures |table| < limit ==> UpdateTable(table, name, score, limit) == Some(SortByScore(table + [Score(name, score)]))
    ensures |table| == limit && table[limit - 1].score > score ==>
      UpdateTable(table, name, score, limit) == Some(SortByScore(table[..limit - 1] + [Score(name, score)]))
    ensures !(|table| < limit || (|table| == limit && table[limit - 1].score > score)) ==>
      UpdateTable(table, name, score, limit).None?
  {
  }

  /** The update step of `change_high_score_file`: append the winner to a short
      table, or overwrite the last record of a full one whose last score is
      higher, then sort; otherwise nothing is written. */
  method UpdateScores(table: seq<Score>, name: string, score: int, limit: nat)
    returns (r: Option<seq<Score>>)
    requires limit > 0
    ensures r == UpdateTable(table, name, score, limit)
  {
    UpdateTableBranches(table, name, score, limit);
    var nameScores := table;
    var winner := Score(name, score);
    if |nameScores| < limit {
      nameScores := nameScores + [winner];
    } else if |nameScores| == limit && nameScores[|nameScores| - 1].score > score {
      nameScores := nameScores[|nameScores| - 1 := winner];
      assert nameScores == table[..limit - 1] + [winner];
    } else {
      return None;
    }
    nameScores := SortByScore(nameScores);
    r := Some(nameScores);
  }

  /** `change_high_score_file` on the file's content: reads the records line
      by line, updates the table and renders the content to write back. */
  method ChangeHighScoreFile(content: string, name: string, score: int, limit: nat)
    returns (r: Result<Option<string>, LineError>)
    requires limit > 0
    ensures r == HighScoreFileUpdate(content, name, score, limit)
  {
    var read := ReadScores(ReadLines(content));
    if read.Err? {
      return Err(read.error);
    }
    FileUpdateAfterRead(content, name, score, limit, read.value);
    var updated := UpdateScores(read.value, name, score, limit);
    if updated.None? {
      return Ok(None);
    }
    var written := WriteScores(updated.value);
    r := Ok(Some(written));
  }
}

=== FILE: Inventory.dfy ===
/** The player's inventory and the left-click handlers of the inventory view:
    the single-active-item click of the game windows and the plain toggle of
    `InventoryView`. */
module Inventory {
  import opened Entities
  import opened Geometry

  /** Index of the first active item, or `|items|` when none is active: the
      item the click handler's scan stops at. */
  function FirstActive(items: seq<Item>): (k: nat)
    ensures k <= |items|
    ensures k < |items| ==> items[k].active
    ensures forall j :: 0 <= j < k ==> !items[j].active
  {
    if items == [] then 0
    else if items[0].active then 0
    else 1 + FirstActive(items[1..])
  }

  /** The inventory invariant: no two items are active. */
  ghost predicate AtMostOneActive(items: seq<Item>) {
    forall i, j :: 0 <= i < |items| && 0 <= j < |items| && items[i].active && items[j].active ==> i == j
  }

  /** Exactly item `k` is active. */
  ghost predicate OnlyActive(items: seq<Item>, k: int) {
    forall j :: 0 <= j < |items| ==> (items[j].active <==> j == k)
  }

  ghost predicate NoneActive(items: seq<Item>) {
    forall j :: 0 <= j < |items| ==> !items[j].active
  }

  /** Same items in the same order, with the same kinds and lifetimes; only
      the flags may differ. */
  ghost predicate SameItems(a: seq<Item>, b: seq<Item>) {
    |a| == |b| && forall j :: 0 <= j < |a| ==> a[j].kind == b[j].kind && a[j].lifetime == b[j].lifetime
  }

  /** The items after a click on inventory row `row` (row 0 is the header):
      clicking an inactive item first switches off the first active item, then
      switches the clicked one on; clicking the active item switches it off;
      a row without an item changes nothing. */
  function Clicked(items: seq<Item>, row: int): (r: seq<Item>)
    ensures SameItems(items, r)
    ensures 0 < row <= |items| ==> r[row - 1].active == !items[row - 1].active
    ensures forall j :: 0 <= j < |items| && j != row - 1 && r[j].active ==> items[j].active
  {
    if 0 < row <= |items| then
      var i := row - 1;
      if items[i].active then
        items[i := items[i].Toggled()]
      else
        var k := FirstActive(items);
        var cleared := if k < |items| then items[k := items[k].Toggled()] else items;
        cleared[i := cleared[i].Toggled()]
    else
      items
  }

  /** Activating an inactive item leaves it the only active item. */
  lemma ClickActivatesOnly(items: seq<Item>, row: int)
    requires AtMostOneActive(items)
    requires 0 < row <= |items| && !items[row - 1].active
    ensures OnlyActive(Clicked(items, row), row - 1)
  {
  }

  /** Clicking the active item leaves no item active; no other flag changes. */
  lemma ClickDeactivates(items: seq<Item>, row: int)
    requires AtMostOneActive(items)
    requires 0 < row <= |items| && items[row - 1].active
    ensures NoneActive(Clicked(items, row))
    ensures Clicked(items, row) == items[row - 1 := items[row - 1].(active := false)]
  {
  }

  /** A click on the header row or below the last item changes nothing. */
  lemma ClickOutsideItems(items: seq<Item>, row: int)
    requires row <= 0 || row > |items|
    ensures Clicked(items, row) == items
  {
  }

  /** Every click keeps the inventory invariant. */
  lemma ClickKeepsAtMostOneActive(items: seq<Item>, row: int)
    requires AtMostOneActive(items)
    ensures AtMostOneActive(Clicked(items, row))
  {
    if 0 < row <= |items| {
      if items[row - 1].active {
        ClickDeactivates(items, row);
      } else {
        ClickActivatesOnly(items, row);
      }
    }
  }

  /** The items after `InventoryView.toggle_item_activation` on row `row`: it
      flips item `row - 1` alone and does not look at the other items. */
  function ToggledAt(items: seq<Item>, row: int): (r: seq<Item>)
    requires row <= |items|
    ensures SameItems(items, r)
    ensures forall j :: 0 <= j < |items| ==> (r[j].active <==> (items[j].active != (j == row - 1)))
  {
    if row > 0 then items[row - 1 := items[row - 1].Toggled()] else items
  }

  /** A player's inventory: `get_items()` in pickup order. */
  class Inventory {
    var items: seq<Item>

    /** The invariant the clicks of the game windows keep. */
    ghost predicate Valid()
      reads this
    {
      AtMostOneActive(items)
    }

    constructor (items: seq<Item>)
      ensures this.items == items
    {
      this.items := items;
    }

    /** `_inventory_click` of the game windows once the row is known: the scan
        for an active item stops at the first one. Returns the kind of the
        clicked item, if the row holds one. */
    method Click(row: int) returns (clicked: Option<ItemKind>)
      requires Valid()
      modifies this
      ensures Valid()
      ensures items == Clicked(old(items), row)
      ensures clicked == if 0 < row <= |old(items)| then Some(old(items)[row - 1].kind) else None
    {
      clicked := None;
      if 0 < row && row <= |items| {
        var item := items[row - 1];
        if !item.active {
          var i := 0;
          while i < |items|
            invariant 0 <= i <= |items|
            invariant items == old(items)
            invariant forall j :: 0 <= j < i ==> !items[j].active
          {
            if items[i].active {
              items := items[i := items[i].Toggled()];
              break;
            }
            i := i + 1;
          }
        }
        items := items[row - 1 := items[row - 1].Toggled()];
        clicked := Some(item.kind);
      }
      ClickKeepsAtMostOneActive(old(items), row);
    }

    /** `InventoryView.toggle_item_activation`: flips the item under the row
        of the clicked pixel; the header row changes nothing, and a row below
        the last item raises `IndexError` (`indexError`) before anything changes. */
    method ToggleItemActivation(view: AbstractGrid, pixel: Pos) returns (indexError: bool)
      requires view.recWidth != 0 && view.recHeight != 0
      modifies this
      ensures var row := view.PixelToPosition(pixel).y;
              indexError <==> row > |old(items)|
      ensures !indexError ==> items == ToggledAt(old(items), view.PixelToPosition(pixel).y)
      ensures indexError ==> items == old(items)
    {
      var rowY := view.PixelToPosition(pixel).y;
      indexError := rowY > |items|;
      if indexError {
        return;
      }
      if rowY > 0 {
        items := items[rowY - 1 := items[rowY - 1].Toggled()];
      }
    }
  }

  /** The click handler of the first two game windows: the row is the one of
      the clicked pixel on the inventory view. */
  method InventoryClick(view: AbstractGrid, pixel: Pos, inventory: Inventory)
    requires view.recWidth != 0 && view.recHeight != 0
    requires inventory.Valid()
    modifies inventory
    ensures inventory.Valid()
    ensures inventory.items == Clicked(old(inventory.items), view.PixelToPosition(pixel).y)
  {
    var row := view.PixelToPosition(pixel).y;
    var _ := inventory.Click(row);
  }
}

=== FILE: PyArith.dfy ===
/** Python's integer `//` and `%`, which round toward negative infinity.
    Dafny's own `/` and `%` are Euclidean; the two agree for a positive divisor. */
module PyArith {

  /** `a // b`. */
  function FloorDiv(a: int, b: int): (q: int)
    requires b != 0
    ensures b > 0 ==> q * b <= a < q * b + b
    ensures b < 0 ==> q * b >= a > q * b + b
  {
    if b > 0 then a / b else (-a) / (-b)
  }

  /** `a % b`: the remainder has the sign of the divisor. */
  function FloorMod(a: int, b: int): (r: int)
    requires b != 0
    ensures a == FloorDiv(a, b) * b + r
    ensures b > 0 ==> 0 <= r < b
    ensures b < 0 ==> b < r <= 0
  {
    a - b * FloorDiv(a, b)
  }

  /** For a positive divisor, a value inside the block `[q*b, q*b + b - 1]`
      has quotient `q`. */
  lemma FloorDivInBlock(a: int, b: int, q: int)
    requires b > 0
    requires q * b <= a < q * b + b
    ensures FloorDiv(a, b) == q
  {
    var d := FloorDiv(a, b);
    if d < q {
      MulMonotone(d + 1, q, b);
      MulSucc(d, b);
      assert false;
    } else if d > q {
      MulMonotone(q + 1, d, b);
      MulSucc(q, b);
      assert false;
    }
  }

  lemma MulMonotone(m: int, n: int, b: int)
    requires m <= n && b >= 0
    ensures m * b <= n * b
  {
    assert n * b - m * b == (n - m) * b;
  }

  lemma MulSucc(m: int, b: int)
    ensures (m + 1) * b == m * b + b
  {
  }
}

=== FILE: TimeMachine.dfy ===
/** The time machine of the third game window: the copies of a game that drop
    every time machine, the six-slot buffer of copies taken after each move,
    and what clicking a time machine in the inventory restores. */
module TimeMachine {
  import opened Entities
  import opened Geometry
  import opened Inventory

  /** The items without their time machines, in the same order. */
  function WithoutTimeMachines(items: seq<Item>): (r: seq<Item>)
    ensures forall i :: 0 <= i < |r| ==> r[i].kind != TimeMachine
    ensures forall x :: x in r ==> x in items
    ensures forall x :: x in items && x.kind != TimeMachine ==> x in r
    ensures |r| <= |items|
  {
    if items == [] then []
    else if items[0].kind == TimeMachine then WithoutTimeMachines(items[1..])
    else [items[0]] + WithoutTimeMachines(items[1..])
  }

  /** Dropping time machines splits over concatenation, so the kept items keep their order. */
  lemma {:induction false} WithoutTimeMachinesConcat(a: seq<Item>, b: seq<Item>)
    ensures WithoutTimeMachines(a + b) == WithoutTimeMachines(a) + WithoutTimeMachines(b)
  {
    if a == [] {
      assert a + b == b;
    } else {
      assert (a + b)[0] == a[0] && (a + b)[1..] == a[1..] + b;
      WithoutTimeMachinesConcat(a[1..], b);
    }
  }

  /** Items without a time machine are kept as they are. */
  lemma {:induction false} WithoutTimeMachinesKeepsFree(items: seq<Item>)
    requires forall i :: 0 <= i < |items| ==> items[i].kind != TimeMachine
    ensures WithoutTimeMachines(items) == items
  {
    if items != [] {
      WithoutTimeMachinesKeepsFree(items[1..]);
    }
  }

  /** One tile of a rebuilt game. Only the classes the rebuild names come back:
      a plain `Player` has no branch and is dropped, and without
      `keepTimeMachines` time machines are dropped from the grid and from the
      holding player's inventory. Lifetimes, `_using` flags and `_infected`
      are copied. */
  function CopyTile(e: Entity, keepTimeMachines: bool): (r: Option<Entity>)
    ensures r.None? <==> e.Player? || (!keepTimeMachines && e.Pickup? && e.item.kind == TimeMachine)
    ensures keepTimeMachines && r.Some? ==> r.value == e
    ensures !keepTimeMachines && r.Some? && r.value.HoldingPlayer? ==>
      forall i :: 0 <= i < |r.value.items| ==> r.value.items[i].kind != TimeMachine
  {
    match e
    case Zombie => Some(Zombie)
    case TrackingZombie => Some(TrackingZombie)
    case Hospital => Some(Hospital)
    case Player(_) => None
    case HoldingPlayer(infected, items) =>
      Some(HoldingPlayer(infected, if keepTimeMachines then items else WithoutTimeMachines(items)))
    case Pickup(item) =>
      if !keepTimeMachines && item.kind == TimeMachine then None else Some(Pickup(item))
  }

  /** No time machine lies on the grid or in a holding player's inventory. */
  ghost predicate FreeOfTimeMachines(g: GameRecord) {
    forall p :: p in g.tiles ==>
      match g.tiles[p]
      case Pickup(item) => item.kind != TimeMachine
      case HoldingPlayer(_, items) => forall i :: 0 <= i < |items| ==> items[i].kind != TimeMachine
      case _ => true
  }

  /** `get_no_time_machine_game_from_dict` applied to the duplicated game. */
  function NoTimeMachineCopy(g: GameRecord): (r: GameRecord)
    ensures r.size == g.size && r.steps == g.steps && r.moves == g.moves
    ensures FreeOfTimeMachines(r)
    ensures r.tiles.Keys <= g.tiles.Keys
    ensures forall p :: p in g.tiles ==>
      match g.tiles[p]
      case Pickup(item) => (p in r.tiles <==> item.kind != TimeMachine) && (p in r.tiles ==> r.tiles[p] == g.tiles[p])
      case Player(_) => p !in r.tiles
      case HoldingPlayer(infected, items) => p in r.tiles && r.tiles[p] == HoldingPlayer(infected, WithoutTimeMachines(items))
      case _ => p in r.tiles && r.tiles[p] == g.tiles[p]
  {
    var tiles := map p | p in g.tiles && CopyTile(g.tiles[p], false).Some? :: CopyTile(g.tiles[p], false).value;
    GameRecord(g.size, tiles, g.steps, g.moves)
  }

  /** `get_complete_game_from_dict`: every tile except a plain `Player` comes back unchanged. */
  function CompleteCopy(g: GameRecord): (r: GameRecord)
    ensures r.size == g.size && r.steps == g.steps && r.moves == g.moves
    ensures forall p :: p in r.tiles <==> p in g.tiles && !g.tiles[p].Player?
    ensures forall p :: p in r.tiles ==> r.tiles[p] == g.tiles[p]
  {
    var tiles := map p | p in g.tiles && CopyTile(g.tiles[p], true).Some? :: CopyTile(g.tiles[p], true).value;
    GameRecord(g.size, tiles, g.steps, g.moves)
  }

  /** A game with no plain `Player` tile is copied exactly. */
  lemma CompleteCopyIsExact(g: GameRecord)
    requires forall p :: p in g.tiles ==> !g.tiles[p].Player?
    ensures CompleteCopy(g) == g
  {
    assert CompleteCopy(g).tiles == g.tiles;
  }

  /** Copying a copy without time machines changes nothing more. */
  lemma NoTimeMachineCopyIdempotent(g: GameRecord)
    ensures NoTimeMachineCopy(NoTimeMachineCopy(g)) == NoTimeMachineCopy(g)
  {
    var once := NoTimeMachineCopy(g);
    var twice := NoTimeMachineCopy(once);
    forall p | p in once.tiles
      ensures p in twice.tiles && twice.tiles[p] == once.tiles[p]
    {
      if once.tiles[p].HoldingPlayer? {
        WithoutTimeMachinesKeepsFree(once.tiles[p].items);
      }
    }
    assert twice.tiles == once.tiles;
  }

  /** The copy without time machines differs from the complete copy only by
      the time machines it drops. */
  lemma NoTimeMachineCopyOfFreeGame(g: GameRecord)
    requires FreeOfTimeMachines(g)
    ensures NoTimeMachineCopy(g) == CompleteCopy(g)
  {
    forall p | p in g.tiles && g.tiles[p].HoldingPlayer?
      ensures WithoutTimeMachines(g.tiles[p].items) == g.tiles[p].items
    {
      WithoutTimeMachinesKeepsFree(g.tiles[p].items);
    }
    assert NoTimeMachineCopy(g).tiles == CompleteCopy(g).tiles;
  }

  /** Number of games `_back5games` holds. */
  const SlotCount := 6

  function EmptySlots(): (s: seq<Option<GameRecord>>)
    ensures |s| == SlotCount && forall i :: 0 <= i < |s| ==> s[i].None?
  {
    [None, None, None, None, None, None]
  }

  /** The slot written after a move while `moves <= 6`: Python's index
      `moves - 1`, where index -1 (no successful move yet) is the last slot. */
  function SlotIndex(moves: nat): (i: nat)
    requires moves <= SlotCount
    ensures i < SlotCount
    ensures moves == 0 ==> i == SlotCount - 1
    ensures 1 <= moves ==> i == moves - 1
  {
    if moves == 0 then SlotCount - 1 else moves - 1
  }

  /** The slots after saving `game` at the end of a move: written by index for
      the first six moves, then the oldest copy is dropped and the new one
      appended. */
  function Saved(slots: seq<Option<GameRecord>>, game: GameRecord): (r: seq<Option<GameRecord>>)
    requires |slots| == SlotCount
    ensures |r| == SlotCount
    ensures game.moves <= SlotCount ==>
      r[SlotIndex(game.moves)] == Some(NoTimeMachineCopy(game))
      && forall i :: 0 <= i < SlotCount && i != SlotIndex(game.moves) ==> r[i] == slots[i]
    ensures game.moves > SlotCount ==> r[SlotCount - 1] == Some(NoTimeMachineCopy(game)) && r[..SlotCount - 1] == slots[1..]
  {
    var copy := Some(NoTimeMachineCopy(game));
    if game.moves <= SlotCount then slots[SlotIndex(game.moves) := copy]
    else slots[1..] + [copy]
  }

  /** The slots after saving each of `games` in turn, starting from six empty slots. */
  function Replayed(games: seq<GameRecord>): (r: seq<Option<GameRecord>>)
    ensures |r| == SlotCount
  {
    if games == [] then EmptySlots()
    else Saved(Replayed(games[..|games| - 1]), games[|games| - 1])
  }

  /** Games saved after moves 1, 2, ..., in order. */
  ghost predicate Consecutive(games: seq<GameRecord>) {
    forall i :: 0 <= i < |games| ==> games[i].moves == i + 1
  }

  /** After the first k <= 6 moves slot i holds the copy taken after move
      i + 1; after k > 6 moves the buffer holds the copies of the last six
      moves, oldest first. */
  lemma {:induction false} ReplayedHoldsLastSix(games: seq<GameRecord>)
    requires Consecutive(games)
    ensures |games| <= SlotCount ==>
      forall i :: 0 <= i < SlotCount ==>
        Replayed(games)[i] == if i < |games| then Some(NoTimeMachineCopy(games[i])) else None
    ensures |games| >= SlotCount ==>
      forall i :: 0 <= i < SlotCount ==>
        Replayed(games)[i] == Some(NoTimeMachineCopy(games[|games| - SlotCount + i]))
  {
    if games != [] {
      var prefix := games[..|games| - 1];
      ReplayedHoldsLastSix(prefix);
    }
  }

  /** What the game window does after a click on an inventory row. */
  datatype Restore =
    | Continue           // no time machine was clicked: keep playing
    | Restart            // at most five moves were made: a new game from the map file
    | Rewind(game: GameRecord)  // play the oldest saved game again
    | MissingSnapshot    // the oldest slot is still empty: the source fails reading its moves

  /** The restore rule for a clicked time machine. */
  function RestoreRule(moves: nat, slots: seq<Option<GameRecord>>): (r: Restore)
    requires |slots| == SlotCount
    ensures r.Restart? <==> moves <= 5
    ensures r.Rewind? ==> Some(r.game) == slots[0]
    ensures moves > 5 ==> r == (if slots[0].Some? then Rewind(slots[0].value) else MissingSnapshot)
  {
    if moves <= 5 then Restart
    else match slots[0]
      case None => MissingSnapshot
      case Some(g) => Rewind(g)
  }

  /** After k >= 6 consecutive moves, using the time machine goes back five
      moves, to a game without time machines. */
  lemma TimeMachineGoesBackFiveMoves(games: seq<GameRecord>)
    requires Consecutive(games) && |games| >= SlotCount
    ensures RestoreRule(|games|, Replayed(games)) == Rewind(NoTimeMachineCopy(games[|games| - SlotCount]))
    ensures RestoreRule(|games|, Replayed(games)).game.moves == |games| - 5
    ensures FreeOfTimeMachines(RestoreRule(|games|, Replayed(games)).game)
  {
    var oldest := games[|games| - SlotCount];
    assert oldest.moves == |games| - 5;
    ReplayedHoldsLastSix(games);
    assert Replayed(games)[0] == Some(NoTimeMachineCopy(oldest));
  }

  /** As written, `_move` saves after every movement key, also when the move is
      blocked and the move count stays the same. Past move six such a press
      drops the oldest copy all the same, so after saves at moves 1 to 7 and a
      blocked press (still 7 moves) the time machine restores the copy taken
      after move 3: four moves back, not five. */
  lemma BlockedPressShortensRewind(games: seq<GameRecord>)
    requires |games| == 8 && Consecutive(games[..7]) && games[7].moves == 7
    ensures RestoreRule(7, Replayed(games)) == Rewind(NoTimeMachineCopy(games[2]))
    ensures RestoreRule(7, Replayed(games)).game.moves == 7 - 4
  {
    var first := games[..7];
    assert games[..|games| - 1] == first;
    ReplayedHoldsLastSix(first);
    assert Replayed(first)[1] == Some(NoTimeMachineCopy(games[2]));
    assert Replayed(games) == Replayed(first)[1..] + [Some(NoTimeMachineCopy(games[7]))];
  }

  /** The move count when the last of `presses` was saved, 0 before any press. */
  function MovesSoFar(presses: seq<GameRecord>): nat {
    if presses == [] then 0 else presses[|presses| - 1].moves
  }

  /** The save that evidently was meant: a press that moved the player saves
      its game as `Saved` does, and a press that left the move count unchanged
      saves nothing. */
  function SavedIfMoved(slots: seq<Option<GameRecord>>, movesBefore: nat, game: GameRecord): (r: seq<Option<GameRecord>>)
    requires |slots| == SlotCount
    ensures |r| == SlotCount
    ensures game.moves == movesBefore ==> r == slots
    ensures game.moves != movesBefore ==> r == Saved(slots, game)
  {
    if game.moves == movesBefore then slots else Saved(slots, game)
  }

  /** The slots after each of `presses` in turn, saved by `SavedIfMoved`. */
  function ReplayedIfMoved(presses: seq<GameRecord>): (r: seq<Option<GameRecord>>)
    ensures |r| == SlotCount
  {
    if presses == [] then EmptySlots()
    else
      var before := presses[..|presses| - 1];
      SavedIfMoved(ReplayedIfMoved(before), MovesSoFar(before), presses[|presses| - 1])
  }

  /** The presses that moved the player, in order. */
  function MovingPresses(presses: seq<GameRecord>): (r: seq<GameRecord>)
    ensures |r| <= |presses|
  {
    if presses == [] then []
    else
      var before := presses[..|presses| - 1];
      var last := presses[|presses| - 1];
      if last.moves == MovesSoFar(before) then MovingPresses(before) else MovingPresses(before) + [last]
  }

  /** Each movement key either moves the player (one more move) or is blocked
      (the same number of moves). */
  ghost predicate PressSequence(presses: seq<GameRecord>) {
    forall i :: 0 <= i < |presses| ==>
      presses[i].moves == MovesSoFar(presses[..i]) || presses[i].moves == MovesSoFar(presses[..i]) + 1
  }

  /** Saving only after a move keeps exactly the copies that saving after the
      moving presses alone would keep. */
  lemma {:induction false} ReplayedIfMovedSkipsBlocked(presses: seq<GameRecord>)
    ensures ReplayedIfMoved(presses) == Replayed(MovingPresses(presses))
  {
    if presses != [] {
      var before := presses[..|presses| - 1];
      var last := presses[|presses| - 1];
      ReplayedIfMovedSkipsBlocked(before);
      if last.moves != MovesSoFar(before) {
        var moving := MovingPresses(before) + [last];
        assert moving[..|moving| - 1] == MovingPresses(before);
      }
    }
  }

  /** In a press sequence the moving presses are the moves 1, 2, ..., one for
      each move made. */
  lemma {:induction false} MovingPressesAreConsecutive(presses: seq<GameRecord>)
    requires PressSequence(presses)
    ensures Consecutive(MovingPresses(presses))
    ensures |MovingPresses(presses)| == MovesSoFar(presses)
  {
    if presses != [] {
      var before := presses[..|presses| - 1];
      var last := presses[|presses| - 1];
      forall i | 0 <= i < |before|
        ensures before[i].moves == MovesSoFar(before[..i]) || before[i].moves == MovesSoFar(before[..i]) + 1
      {
        assert before[..i] == presses[..i];
      }
      MovingPressesAreConsecutive(before);
      assert presses[..|presses| - 1] == before;
    }
  }

  /** With saves after moves only, using the time machine after six or more
      moves goes back exactly five moves, however many presses were blocked. */
  lemma TimeMachineGoesBackFiveMovesIfMoved(presses: seq<GameRecord>)
    requires PressSequence(presses) && MovesSoFar(presses) >= SlotCount
    ensures var moves := MovesSoFar(presses);
            var r := RestoreRule(moves, ReplayedIfMoved(presses));
            r.Rewind? && r.game.moves == moves - 5 && FreeOfTimeMachines(r.game)
  {
    ReplayedIfMovedSkipsBlocked(presses);
    MovingPressesAreConsecutive(presses);
    TimeMachineGoesBackFiveMoves(MovingPresses(presses));
  }

  /** `_back5games`, the six copies used by the time machine. */
  class History {
    var slots: seq<Option<GameRecord>>

    /** Six slots, and every saved copy is free of time machines. */
    ghost predicate Valid()
      reads this
    {
      |slots| == SlotCount && forall i :: 0 <= i < |slots| && slots[i].Some? ==> FreeOfTimeMachines(slots[i].value)
    }

    constructor ()
      ensures Valid() && slots == EmptySlots()
    {
      slots := EmptySlots();
    }

    /** The end of `_move`: saves a copy of `game` without time machines. */
    method Save(game: GameRecord)
      requires Valid()
      modifies this
      ensures Valid()
      ensures slots == Saved(old(slots), game)
    {
      var copy := NoTimeMachineCopy(game);
      if game.moves <= SlotCount {
        slots := slots[SlotIndex(game.moves) := Some(copy)];
      } else {
        slots := slots[1..];
        slots := slots + [Some(copy)];
      }
    }

    /** The save after a movement key that was evidently meant: nothing is
        saved when the press left the move count at `movesBefore`. */
    method SaveIfMoved(game: GameRecord, movesBefore: nat)
      requires Valid()
      modifies this
      ensures Valid()
      ensures slots == SavedIfMoved(old(slots), movesBefore, game)
    {
      if game.moves != movesBefore {
        Save(game);
      }
    }
  }

  /** `_inventory_click` of the third game window: the single-active click,
      then, if the clicked item is a time machine (whether it was switched on
      or off), the restore rule for the current move count. */
  method RewindingClick(view: AbstractGrid, pixel: Pos, inventory: Inventory, history: History, moves: nat)
    returns (r: Restore)
    requires view.recWidth != 0 && view.recHeight != 0
    requires history.Valid() && inventory.Valid()
    modifies inventory
    ensures inventory.Valid()
    ensures inventory.items == Clicked(old(inventory.items), view.PixelToPosition(pixel).y)
    ensures var row := view.PixelToPosition(pixel).y;
            r == if 0 < row <= |old(inventory.items)| && old(inventory.items)[row - 1].kind == TimeMachine
                 then RestoreRule(moves, history.slots)
                 else Continue
    ensures r.Rewind? ==> FreeOfTimeMachines(r.game)
  {
    var row := view.PixelToPosition(pixel).y;
    var clicked := inventory.Click(row);
    if clicked == Some(TimeMachine) {
      r := RestoreRule(moves, history.slots);
    } else {
      r := Continue;
    }
  }
}
